=== FILE: README.md ===
# TradeFlow AI: the upload pipeline and dashboard logic, in Dafny

TradeFlow AI is a Next.js purchase-order-processing SaaS front end. Most of it
is presentation. This project models the parts that hold logic you can state
and prove, as pure Dafny functions over immutable datatypes:

- **The upload page's simulated pipeline** (`upload.dfy`, module `Upload`).
  - Dropping files appends `uploading` records and starts one interval timer per file.
  - Upload ticks add 10 to each file's progress, and processing ticks add 15.
  - A completed file gets a mock extraction result and costs one credit, clamped at 0.
  - Removing a file filters its records out of the list.
  - The state is a `Page`: the records, the credit counter and one `Timer` per dropped file. The timers are kept beside the list, as the page's closures are.
  - Every interval callback is one atomic step. A run is any sequence of drop, tick and remove events, so any interleaving of the timers is covered.
- **The upload page's status display** (`upload_view.dfy`, module `UploadView`): the icon, badge colour, badge label, progress bar, result panel and error panel.
- **The dashboard statistics** (`user_stats.dfy`, module `UserStats`): the stats block of `useUserData`, a pure function of the three query results.
- **The dashboard display helpers** (`dashboard.dfy`, module `Dashboard`).
  - The status icon and badge.
  - Defaulting a missing status.
  - The item count.
  - The month-over-month text.
  - The success numerator.
  - The credits-bar guard.
- **The integrations page** (`integrations.dfy`, module `Integrations`).
  - The two-switch toggle.
  - The card list.
  - The Active/Available counts.
  - The setup panels.
- **Shared pieces**: `common.dfy` (`Option`, `Max`, icons) and `decimal.dfy`. The latter holds `Number#toString` for non-negative integers, `padStart`, and reading a digit string back, the inverse every rendered number is stated against.

## Modelling decisions

- **Random values are inputs.**
  - `Math.random` ids arrive with each dropped file (`Arrival.id`).
  - The four draws behind a mock result are reals in [0, 1) (`Draws`).
  - `Math.floor(r * n)` is `(r * n).Floor`.
- **Removed files keep their timers.** `removeFile` does not stop a file's timer. Ticks of a removed file's timer find no record, but its completion still takes a credit. The model keeps this behaviour.
- **Failure states are never produced.** The code never produces `failed` and never sets `error`: there is no failure path. Its processing callback writes 105 and then overwrites it with 100 in the same callback. `Upload.RunSafe` proves that `failed` is unreachable.
- **Two tiers of proof.**
  - Some properties hold whatever ids `Math.random` produces (`Upload.Safe`):
    - no failure;
    - progress in [0, 100];
    - credits equal to max(0, 8 - completions);
    - well-formed results.
  - Other properties are proved only when every drop draws fresh ids (`Upload.Coherent`):
    - each record agrees with its timer (`Upload.RunCoherent`);
    - a status never moves back, and progress never falls while the status stays (`Upload.StepForward`, `Upload.TickForward`);
    - `completed` is terminal (`Upload.CompletedIsTerminal`).
  - `Upload.CollidingIdsReopenCompleted` shows why fresh ids are needed. Starting from the initial page, drop a file and let its timer finish, then drop a file that draws the same id. From the first colliding tick the completed record's progress is rewritten (to 10). After ten ticks that record is `processing` at 0.
- **Number rounding is exact integer arithmetic.**
  - `Math.round(c / t * 100)` becomes the nearest percentage with halves rounded up: ⌊(200c + t) / (2t)⌋.
  - `Math.floor(n * 0.1)` becomes `n / 10` for a count `n`. The double nearest 0.1 lies above 1/10, so the rounded product never falls below the integer quotient.
  - `Math.floor(t * r / 100)` becomes Dafny's `/`. With a positive divisor it rounds toward minus infinity, like `Math.floor`.
- **Observed quirks, kept as written.**
  - `quotaData?.remaining_credits || 10` reports a balance of 0 as 10. Likewise a `monthly_quota` of 0 reads as 10. So the used count can be negative (`UserStats.ZeroFallsBackToTen`).
  - One to nine purchase orders give the text "+0".

## Model

| member | source | states |
|---|---|---|
| `Upload.Intake` | app/upload/page.tsx:56-64 | every selected file is either accepted or rejected, never both; the accepted ones are exactly those of an accepted type within the 10 MiB bound |
| `Upload.IntakeAppend` | app/upload/page.tsx:56-64 | accepting and rejecting work file by file, so both lists keep selection order |
| `Upload.OversizedFileRejected` | app/upload/page.tsx:63 | a 15 MiB PDF is rejected and nothing is accepted |
| `Upload.RandomBelow` | app/upload/page.tsx:96-99 | `Math.floor(r * n)` is an integer in [0, n) whose interval contains r·n |
| `Upload.PoSuffix` | app/upload/page.tsx:96 | the padded pick is exactly three digits that read back as the pick |
| `Upload.MockResult` | app/upload/page.tsx:95-100 | the PO number is "PO-2024-" plus three digits (11 characters); the vendor is one of the three names; the amount is in [5000, 104999]; there are 1 to 10 line items |
| `Upload.MockResultReadsBack` | app/upload/page.tsx:95-100 | each field of the mock result reads back as the draw it came from |
| `Upload.PatchMatching` | app/upload/page.tsx:71-73 | the update reaches every record with the id and no other; order and length are kept |
| `Upload.Without` | app/upload/page.tsx:120 | the filtered list holds exactly the records without the id; it is no longer, and it keeps ids distinct |
| `Upload.WithoutAppend` | app/upload/page.tsx:120 | filtering distributes over concatenation, so the kept records keep their order |
| `Upload.WithoutAbsent` | app/upload/page.tsx:120 | filtering an id no record carries changes nothing |
| `Upload.Drop` | app/upload/page.tsx:40-53 | N accepted files append exactly N `uploading` records at progress 0 after the unchanged existing ones, and start N upload timers; credits are unchanged |
| `Upload.UploadTick` | app/upload/page.tsx:69-84 | an upload callback changes only its own timer, leaves credits alone, and moves the timer to count + 10, or to the processing count at 0 once it reaches 100 |
| `Upload.ProcessTick` | app/upload/page.tsx:85-113 | a processing callback changes only its own timer, moving it to count + 15 or clearing it at 100 or more; credits fall to max(0, c - 1) exactly when it clears the timer |
| `Upload.UploadTickRecord` | app/upload/page.tsx:69-81 | for any count, an upload callback moves each record with its id to count + 10; at 100 it instead switches the record to `processing` at 0 and starts the processing count |
| `Upload.ProcessTickRecord` | app/upload/page.tsx:85-109 | a processing callback moves each record with its id to count + 15; at 100 or more it instead completes the record at 100 with the mock result and clears the timer |
| `Upload.Tick` | app/upload/page.tsx:66-116 | a callback touches only the records with its timer's id and only its own timer; ids are kept; the credit is taken exactly at completion |
| `Upload.RemoveFile` | app/upload/page.tsx:119-121 | the kept records are exactly those without the id; credits and all timers are untouched |
| `Upload.RemoveFileEffect` | app/upload/page.tsx:119-121 | after removal no record has the id, the rest keep their order, and removing again changes nothing |
| `Upload.RemovedFileTimerStillDebits` | app/upload/page.tsx:66-121 | a removed file's timer still fires; its ticks leave the list unchanged, and its completion still takes a credit |
| `Upload.Completions` | app/upload/page.tsx:92 | completions so far (cleared timers) never exceed the timers started |
| `Upload.CompletionsUpdate` | app/upload/page.tsx:92 | clearing a running timer adds exactly one completion |
| `Upload.StepSafe` | app/upload/page.tsx:40-121 | every drop, tick or removal preserves the safety invariant |
| `Upload.RunSafe` | app/upload/page.tsx:66-117 | in any interleaving: no record is ever failed or has an error; progress stays in [0, 100]; completed records carry well-formed results; credits equal max(0, 8 - K) after K completions |
| `Upload.LowCreditsAfterSixCompletions` | app/upload/page.tsx:200 | in every run credits are non-negative, and the low-credit warning shows exactly when six or more files have completed |
| `Upload.StepCompletions` | app/upload/page.tsx:40-121 | for any page, one drop, tick or removal adds at most one completion and never undoes one |
| `Upload.StepMonotone` | app/upload/page.tsx:112 | one event adds at most one completion, and credits fall by at most one and never rise |
| `Upload.StepForward` | app/upload/page.tsx:40-116 | with fresh ids, a drop or callback never moves a record's status back (uploading, processing, completed), and while the status stays its progress never falls |
| `Upload.DropCoherent` | app/upload/page.tsx:40-53 | a drop with fresh ids keeps every record in step with its own timer |
| `Upload.TickCoherent` | app/upload/page.tsx:66-116 | a callback keeps every record in step with its own timer |
| `Upload.RunCoherent` | app/upload/page.tsx:40-121 | with fresh ids, every reachable record agrees with its timer: uploading or processing at the timer's count, or completed at 100 once the timer is cleared |
| `Upload.TickForward` | app/upload/page.tsx:68-116 | a callback never moves a record that agrees with the firing timer back in status (uploading, processing, completed), and while the status stays its progress never falls |
| `Upload.CompletedIsTerminal` | app/upload/page.tsx:102-109 | on a coherent page, no drop or tick changes a completed record, whatever ids the event carries; a removal deletes it or leaves it as it is |
| `Upload.CollidingIdsReopenCompleted` | app/upload/page.tsx:40-81 | on a page reached from the initial page, where a second file drew the id of a completed one, the new timer's first tick rewrites the completed record's progress to 10 and its tenth tick turns it back into `processing` at 0 |
| `Upload.UploadTimeline` | app/upload/page.tsx:68-81 | ticks 1 to 9 set progress to 10, ..., 90 with the status kept; the 10th tick switches the record to `processing` at 0 and starts the processing count; nothing else changes |
| `Upload.ProcessTimeline` | app/upload/page.tsx:84-112 | ticks 1 to 6 set progress to 15, ..., 90; the 7th completes the record at 100 with the mock result, clears the timer and takes one credit |
| `Upload.ClearedTimerIsSilent` | app/upload/page.tsx:92 | a cleared timer never changes the page again |
| `Upload.SingleFileEndToEnd` | app/upload/page.tsx:40-116 | one accepted file on the initial page ends completed at 100 with its result after 17 ticks, with 7 credits left |
| `UploadView.ParseStatus` | app/upload/page.tsx:25 | a parsed status spells the string, and an unparsed string names no status |
| `UploadView.ParseStatusName` | app/upload/page.tsx:25 | every status's name parses back to it |
| `UploadView.StatusIcon` | app/upload/page.tsx:123-135 | yellow clock exactly for uploading/processing, green check exactly for completed, red alert exactly for failed, plain file icon exactly for strings naming no status |
| `UploadView.StatusNeverNeutral` | app/upload/page.tsx:123-149 | every status a record can hold gets its own icon and colour, never the fallback ones |
| `UploadView.StatusColor` | app/upload/page.tsx:137-149 | grey exactly for strings naming no status |
| `UploadView.IconAndColorAgree` | app/upload/page.tsx:123-149 | two strings get the same icon exactly when they get the same colour |
| `UploadView.BadgeLabel` | app/upload/page.tsx:279-282 | the badge is the status name with a capital first letter |
| `UploadView.ErrorPanel` | app/upload/page.tsx:333-339 | the error panel shows exactly for failed records: the record's error when it is set and non-empty, otherwise "Failed to process file. Please try again." |
| `UploadView.ReachablePanels` | app/upload/page.tsx:295-339 | in every run each record shows exactly one of the progress bar and the result panel, and never the error panel |
| `UploadView.ProgressBarWhileTimerRuns` | app/upload/page.tsx:295 | with fresh ids, the progress bar shows exactly while the record's timer runs |
| `Decimal.NatToString` | app/upload/page.tsx:96 | `toString()` gives a non-empty digit string that reads back as the number; 0 is spelled "0" and no other number starts with '0', so the spelling is the canonical one |
| `Decimal.NatToStringBelow1000` | app/upload/page.tsx:96 | numbers below 1000 take at most three digits |
| `Decimal.PadStart` | app/upload/page.tsx:96 | padding leaves long strings alone, otherwise reaches the width with the pad character in front of the unchanged string |
| `Decimal.LeadingZerosValue` | app/upload/page.tsx:96 | leading zeros do not change the value a digit string reads back as |
| `Decimal.ZeroPaddedValue` | app/upload/page.tsx:96 | a zero-padded spelling still reads back as the number |
| `UserStats.OrFallback` | hooks/useUserData.ts:100-102 | `x || 10` yields the value unless it is missing or 0 |
| `UserStats.QuotaColumn` | hooks/useUserData.ts:100-102 | a missing quota row, a missing column or a 0 reads as 10; any other value is reported as is |
| `UserStats.CountCompleted` | hooks/useUserData.ts:96 | the completed count is at most the row count; it equals the row count exactly when every row is `completed`, and is 0 exactly when none is |
| `UserStats.CountCompletedAppend` | hooks/useUserData.ts:96 | the count splits over concatenation, so each row counts on its own |
| `UserStats.CountIgnoresOtherStatuses` | hooks/useUserData.ts:96 | changing a row between a missing status and any status other than exactly "completed" leaves the count unchanged |
| `UserStats.RoundedPercent` | hooks/useUserData.ts:97 | the rate is the integer nearest 100·c/t, halves rounded up |
| `UserStats.SuccessRate` | hooks/useUserData.ts:95-97 | the rate is in [0, 100]: 0 with no rows or none completed, 100 when all are completed, and otherwise the rounded percentage |
| `UserStats.SuccessRateMonotone` | hooks/useUserData.ts:97 | more completed rows never lower the rate |
| `UserStats.ComputeUserData` | hooks/useUserData.ts:94-108 | used plus remaining equals total for every quota input; `totalPOs` is the length of `recentPOs` (empty without data); `activeIntegrations` is the row count, or 0 without data |
| `UserStats.UserDataProperties` | hooks/useUserData.ts:95-108 | for all three query results: the rate is in [0, 100], 0 without rows, 100 when all rows are completed, and nearest the completed share; a missing quota reads as 10 total with 0 used |
| `UserStats.ZeroFallsBackToTen` | hooks/useUserData.ts:100-102 | a balance of 0 reads as 10 remaining, so used can be negative; a quota of 0 reads as 10 total |
| `UserStats.RateCountsOnlyCompleted` | hooks/useUserData.ts:96-97 | a row whose status is missing or other than "completed" counts toward the total only |
| `Dashboard.StatusIcon` | app/dashboard/page.tsx:33-44 | green check, yellow clock and red cross exactly for the three known statuses; a grey clock, distinct from all three, for every other string |
| `Dashboard.StatusBadge` | app/dashboard/page.tsx:46-57 | "Unknown" exactly for strings other than the three known statuses; otherwise the status with a capital first letter |
| `Dashboard.IconAndBadgeAgree` | app/dashboard/page.tsx:33-57 | two statuses get the same icon exactly when they get the same badge |
| `Dashboard.DisplayStatus` | app/dashboard/page.tsx:313 | a missing or empty status is shown as "processing"; any other status as it is |
| `Dashboard.MissingStatusShownAsProcessing` | app/dashboard/page.tsx:313-326 | a row without a status gets the processing icon and the "Processing" badge |
| `Dashboard.Utf16Length` | app/dashboard/page.tsx:323 | a string's JavaScript length in UTF-16 code units lies between its character count and twice that, and equals the character count exactly when no character lies beyond U+FFFF |
| `Dashboard.Utf16LengthAppend` | app/dashboard/page.tsx:323 | code-unit lengths add up over concatenation |
| `Dashboard.ItemCount` | app/dashboard/page.tsx:323 | 0 without items; the array length for an array; the key count for an object; 0 for null, booleans and numbers; the UTF-16 code-unit count for a string; positive only for truthy items |
| `Dashboard.EmojiItemCountsTwice` | app/dashboard/page.tsx:323 | a one-emoji string item is shown as 2 items, and "ab" as 2 |
| `Dashboard.MonthOverMonth` | app/dashboard/page.tsx:86 | "0" exactly when there are no purchase orders; otherwise "+" followed by the canonical spelling of ⌊totalPOs / 10⌋, so 1 to 9 purchase orders give "+0" |
| `Dashboard.SuccessNumerator` | app/dashboard/page.tsx:93 | the numerator is ⌊totalPOs·rate/100⌋ and lies in [0, totalPOs] whenever the rate is in [0, 100] |
| `Dashboard.NumeratorWithinTotal` | app/dashboard/page.tsx:93 | for every fetched result the shown numerator lies between 0 and totalPOs |
| `Dashboard.CreditsBar` | app/dashboard/page.tsx:212 | 0, without dividing, when total credits is not positive; otherwise used·100/total, within [0, 100] when 0 ≤ used ≤ total |
| `Dashboard.NoIntegrationsDescribed` | app/dashboard/page.tsx:100 | the card reads "No active integrations" exactly when the integrations query returned no rows |
| `Integrations.HandleToggle` | app/integrations/page.tsx:53-59 | "email" sets the e-mail switch and keeps Sheets; "sheets" sets Sheets and keeps e-mail; any other id changes nothing |
| `Integrations.ToggleIdempotent` | app/integrations/page.tsx:53-59 | applying the same toggle twice equals applying it once |
| `Integrations.ToggleUndo` | app/integrations/page.tsx:53-59 | toggling a switch back to its old value restores both switches |
| `Integrations.TogglesCommute` | app/integrations/page.tsx:53-59 | toggles of different ids commute |
| `Integrations.IntegrationList` | app/integrations/page.tsx:30-51 | two cards: e-mail (no external setup) following its switch, then Sheets (needs setup) following its switch |
| `Integrations.CountEnabled` | app/integrations/page.tsx:133-139 | the filtered count is at most the list length, and equals it exactly when every card matches |
| `Integrations.ActivePlusAvailable` | app/integrations/page.tsx:133-139 | Active plus Available equals the number of cards, for any list |
| `Integrations.SummaryCounts` | app/integrations/page.tsx:133-139 | Active counts the switches that are on; Active plus Available is 2; the initial switches (lines 26-27) give 1 and 1 |
| `Integrations.StatusBadge` | app/integrations/page.tsx:175-180 | "Active" exactly for enabled cards |
| `Integrations.PanelsForFlags` | app/integrations/page.tsx:183-234 | no card shows both the settings panel and the Configure button; the e-mail form shows exactly while e-mail is on; Configure shows exactly while Sheets is on |

## Left out

- **Rendering.** React rendering, JSX, Tailwind classes, routing and the `loading` skeletons are presentation only.
- **Stat-card text.** The template-literal assembly of the stat cards (app/dashboard/page.tsx:75-104) is not modelled beyond the derived numbers and texts listed above. Neither is the header's "credits left" badge.
- **Timing.** The 200 ms and 500 ms intervals become abstract tick events. React state batching is not modelled: each callback is one atomic step.
- **react-dropzone.** The accept check is a given predicate: media type or extension matches, and size ≤ 10 MiB.
  - The library's case-insensitive extension match and wildcard types are not modelled.
  - Nor is any other library behaviour.
- **Math.random.** Ids and draws are inputs. Their distribution is not modelled.
- **Backend I/O.** The Supabase queries are not modelled. This covers error logging, the `PGRST116` case and whether `.limit(10)` is honoured. So are contexts/AuthContext.tsx and lib/supabase.ts. A query's data is an input, `None` when absent.
- **Floating point.**
  - `Intl.NumberFormat`, `toLocaleDateString` and the MB size string are not modelled.
  - The credits bar is an exact rational, not a double.
  - Numeric columns are integers: NaN and fractional values are not modelled.
- **Static pages.** app/page.tsx, app/billing/page.tsx and app/settings/page.tsx hold constant tables and form bindings only.
- `Upload.RunCoherent`: proved only for runs where every drop draws fresh ids, because colliding `Math.random` ids break the record/timer correspondence (see `Upload.CollidingIdsReopenCompleted`).
- `Upload.CompletedIsTerminal`: proved only on coherent pages, which runs reach only with fresh ids, for the same reason.
- `Upload.StepForward`: proved only on coherent pages and for events with fresh ids, for the same reason.
- `Upload.TickForward`: proved only for records that agree with the firing timer, which fresh ids guarantee, for the same reason.
- `Upload.ProgressBarWhileTimerRuns`: proved only under fresh ids, for the same reason.
- `UserStats.RoundedPercent`: exact rounding of 100·c/t. The double-precision `c / t * 100` may round differently at exact halves.

=== FILE: common.dfy ===
/** Small vocabulary shared by every page of the model: optional values
    (JavaScript's `undefined`/`null`), JavaScript's `Math.max` on integers, and the
    icons the pages draw next to a status. */
module Common {

  /** A value that may be missing (`undefined` or `null` in JavaScript). */
  datatype Option<+T> = None | Some(value: T) {

    /** The value, or `default` when missing: JavaScript's `x || default`
        for a value that is truthy whenever present, such as an array. */
    function GetOr(default: T): T {
      match this
      case Some(v) => v
      case None => default
    }
  }

  /** `Math.max(a, b)` on integers. */
  function Max(a: int, b: int): (r: int)
    ensures r >= a && r >= b
    ensures r == a || r == b
  {
    if a >= b then a else b
  }

  /** The glyphs of the icon library the pages use. */
  datatype Glyph = Clock | CheckCircle | AlertCircle | XCircle | FileText

  /** The colour class an icon is drawn with (`Plain` when none is given). */
  datatype Tone = Yellow | Green | Red | Gray | Plain

  datatype Icon = Icon(glyph: Glyph, tone: Tone)
}

=== FILE: dashboard.dfy ===
/** The dashboard's display helpers (app/dashboard/page.tsx): the status
    icon and badge of a purchase-order row, the status a row without one is
    shown with, the row's item count, and the numbers derived from the user
    stats for the stat cards and the credits bar. */
module Dashboard {
  import opened Common
  import opened UserStats
  import Decimal

  /** The three statuses the dashboard draws specially. */
  predicate IsKnown(x: string) {
    x == "completed" || x == "processing" || x == "failed"
  }

  const UnknownIcon: Icon := Icon(Clock, Gray)

  /** `getStatusIcon`: a green check, a yellow clock or a red cross for the
      three known statuses, and a grey clock, distinct from all three, for
      any other string. */
  function StatusIcon(x: string): (icon: Icon)
    ensures x == "completed" <==> icon == Icon(CheckCircle, Green)
    ensures x == "processing" <==> icon == Icon(Clock, Yellow)
    ensures x == "failed" <==> icon == Icon(XCircle, Red)
    ensures !IsKnown(x) <==> icon == UnknownIcon
  {
    match x
    case "completed" => Icon(CheckCircle, Green)
    case "processing" => Icon(Clock, Yellow)
    case "failed" => Icon(XCircle, Red)
    case _ => UnknownIcon
  }

  /** `getStatusBadge`: the known status with a capital first letter, and
      "Unknown" for every other string. */
  function StatusBadge(x: string): (caption: string)
    ensures caption == "Unknown" <==> !IsKnown(x)
    ensures IsKnown(x) ==> |caption| == |x| && caption[1..] == x[1..] && caption[0] as int == x[0] as int - 32
  {
    match x
    case "completed" => "Completed"
    case "processing" => "Processing"
    case "failed" => "Failed"
    case _ => "Unknown"
  }

  /** Icon and badge tell the same story: two statuses get the same icon
      exactly when they get the same badge. */
  lemma IconAndBadgeAgree(x: string, y: string)
    ensures StatusIcon(x) == StatusIcon(y) <==> StatusBadge(x) == StatusBadge(y)
  {
  }

  /** `po.status || 'processing'`: a missing or empty status is shown as
      "processing"; any other status as it is. */
  function DisplayStatus(status: Option<string>): (x: string)
    ensures status in {None, Some("")} ==> x == "processing"
    ensures status !in {None, Some("")} ==> status == Some(x)
  {
    if status.Some? && status.value != "" then status.value else "processing"
  }

  /** A row without a status gets the processing clock and the
      "Processing" badge. */
  lemma MissingStatusShownAsProcessing(po: PurchaseOrder)
    requires po.status.None?
    ensures StatusIcon(DisplayStatus(po.status)) == Icon(Clock, Yellow)
    ensures StatusBadge(DisplayStatus(po.status)) == "Processing"
  {
  }

  /** JavaScript truthiness of a JSON value. */
  predicate Truthy(v: Json) {
    match v
    case JNull => false
    case JBool(b) => b
    case JNumber(n) => n != 0
    case JString(s) => s != ""
    case JArray(_) => true
    case JObject(_) => true
  }

  /** The length of a string as JavaScript measures it, in UTF-16 code
      units: a character beyond U+FFFF takes a surrogate pair. */
  function Utf16Length(s: string): (n: nat)
    ensures |s| <= n <= 2 * |s|
    ensures n == |s| <==> forall i :: 0 <= i < |s| ==> (s[i] as int) < 0x1_0000
  {
    if s == [] then 0
    else (if (s[0] as int) < 0x1_0000 then 1 else 2) + Utf16Length(s[1..])
  }

  /** Code units add up over concatenation. */
  lemma {:induction false} Utf16LengthAppend(s: string, t: string)
    ensures Utf16Length(s + t) == Utf16Length(s) + Utf16Length(t)
  {
    if s == [] {
      assert s + t == t;
    } else {
      assert (s + t)[0] == s[0] && (s + t)[1..] == s[1..] + t;
      Utf16LengthAppend(s[1..], t);
    }
  }

  /** `Object.keys(v).length` for a value that is not an array: the fields
      of an object, the indices of a string (one per UTF-16 code unit),
      none for a number or boolean. */
  function KeyCount(v: Json): nat {
    match v
    case JObject(fields) => |fields.Keys|
    case JString(s) => Utf16Length(s)
    case JArray(elems) => |elems|
    case _ => 0
  }

  /** The item count shown on a row: 0 when `items` is missing or falsy,
      the length of an array, and the number of keys of anything else (for
      a string, its length in UTF-16 code units). */
  function ItemCount(items: Option<Json>): (n: nat)
    ensures items.None? ==> n == 0
    ensures items.Some? && items.value.JArray? ==> n == |items.value.elems|
    ensures items.Some? && items.value.JObject? ==> n == |items.value.fields.Keys|
    ensures items.Some? && items.value.JString? ==> n == Utf16Length(items.value.s)
    ensures items.Some? && (items.value.JNull? || items.value.JBool? || items.value.JNumber?) ==> n == 0
    ensures n > 0 ==> items.Some? && Truthy(items.value)
  {
    if items.None? || !Truthy(items.value) then 0
    else if items.value.JArray? then |items.value.elems|
    else KeyCount(items.value)
  }

  /** A string item counts its code units: an emoji beyond U+FFFF counts
      twice. */
  lemma EmojiItemCountsTwice()
    ensures ItemCount(Some(JString("\U{1F600}"))) == 2
    ensures ItemCount(Some(JString("ab"))) == 2
  {
  }

  /** The month-over-month text: "0" with no purchase orders, otherwise "+"
      followed by `Math.floor(totalPOs * 0.1)`, which for a count is the
      count divided by 10, rounded down. */
  function MonthOverMonth(totalPOs: nat): (text: string)
    ensures text == "0" <==> totalPOs == 0
    ensures totalPOs > 0 ==>
              && |text| >= 2 && text[0] == '+'
              && Decimal.AllDigits(text[1..])
              && Decimal.DigitsValue(text[1..]) == totalPOs / 10
    ensures totalPOs > 0 ==> text[1..] == Decimal.NatToString(totalPOs / 10)
    ensures 0 < totalPOs < 10 ==> text == "+0"
  {
    if totalPOs > 0 then
      var digits := Decimal.NatToString(totalPOs / 10);
      assert ("+" + digits)[1..] == digits;
      "+" + digits
    else "0"
  }

  /** `Math.floor(totalPOs * successRate / 100)`: the number of purchase
      orders the rate stands for, never more than the total when the rate is
      a percentage. */
  function SuccessNumerator(totalPOs: nat, rate: int): (n: int)
    ensures 100 * n <= totalPOs * rate < 100 * (n + 1)
    ensures 0 <= rate <= 100 ==> 0 <= n <= totalPOs
  {
    var n := (totalPOs * rate) / 100;
    NumeratorBounds(totalPOs, rate, n);
    n
  }

  lemma NumeratorBounds(totalPOs: nat, rate: int, n: int)
    requires 100 * n <= totalPOs * rate < 100 * (n + 1)
    ensures 0 <= rate <= 100 ==> 0 <= n <= totalPOs
  {
    if 0 <= rate <= 100 {
      MulMonotone(totalPOs, 0, rate);
      MulMonotone(totalPOs, rate, 100);
    }
  }

  /** The numerator shown under the success rate stays within the total for
      every fetched result. */
  lemma NumeratorWithinTotal(quota: Option<QuotaRow>, pos: Option<seq<PurchaseOrder>>, integrations: Option<seq<IntegrationRow>>)
    ensures var s := ComputeUserData(quota, pos, integrations).stats;
            0 <= SuccessNumerator(s.totalPOs, s.successRate) <= s.totalPOs
  {
    UserDataProperties(quota, pos, integrations);
  }

  /** The credits bar value: the used share of the total as a percentage,
      and 0 without dividing when the total is not positive. */
  function CreditsBar(used: int, total: int): (v: real)
    ensures total <= 0 ==> v == 0.0
    ensures total > 0 ==> v * total as real == used as real * 100.0
    ensures total > 0 && 0 <= used <= total ==> 0.0 <= v <= 100.0
  {
    if total > 0 then (used as real / total as real) * 100.0 else 0.0
  }

  /** The active-integrations card's description. */
  function IntegrationsDescription(active: nat): string {
    if active > 0 then "Google Sheets, Email" else "No active integrations"
  }

  /** The card says "No active integrations" exactly when the integrations
      query returned no rows. */
  lemma NoIntegrationsDescribed(quota: Option<QuotaRow>, pos: Option<seq<PurchaseOrder>>, integrations: Option<seq<IntegrationRow>>)
    ensures var s := ComputeUserData(quota, pos, integrations).stats;
            (IntegrationsDescription(s.activeIntegrations) == "No active integrations")
              <==> (integrations.None? || integrations.value == [])
  {
  }
}

=== FILE: decimal.dfy ===
/** Decimal text for non-negative integers: `Number.prototype.toString()`,
    `String.prototype.padStart` with a one-character pad, and the reading
    back of a digit string, the inverse every rendered number is stated
    against. */
module Decimal {

  predicate IsDigit(c: char) {
    '0' <= c <= '9'
  }

  predicate AllDigits(s: string) {
    forall i :: 0 <= i < |s| ==> IsDigit(s[i])
  }

  function DigitValue(c: char): (d: nat)
    requires IsDigit(c)
    ensures d < 10
  {
    c as int - '0' as int
  }

  function DigitChar(d: nat): (c: char)
    requires d < 10
    ensures IsDigit(c) && DigitValue(c) == d
  {
    ('0' as int + d) as char
  }

  /** The number a string of decimal digits denotes (leading zeros allowed). */
  function DigitsValue(s: string): nat
    requires AllDigits(s)
  {
    if s == [] then 0 else 10 * DigitsValue(s[..|s| - 1]) + DigitValue(s[|s| - 1])
  }

  /** `n.toString()` for a non-negative integer: its shortest decimal
      spelling, which reads back as `n`. */
  function NatToString(n: nat): (s: string)
    ensures 1 <= |s| && AllDigits(s)
    ensures s[0] == '0' ==> n == 0
    ensures n == 0 ==> s == "0"
    ensures DigitsValue(s) == n
  {
    if n < 10 then
      [DigitChar(n)]
    else
      var prefix := NatToString(n / 10);
      var s := prefix + [DigitChar(n % 10)];
      assert s[..|s| - 1] == prefix;
      s
  }

  /** A number below 1000 is spelled with at most three digits. */
  lemma NatToStringBelow1000(n: nat)
    requires n < 1000
    ensures |NatToString(n)| <= 3
  {
    if n >= 10 {
      assert |NatToString(n / 10)| <= 2 by {
        if n / 10 >= 10 {
          assert |NatToString(n / 100)| == 1;
        }
      }
    }
  }

  function Zeros(k: nat): (z: string)
    ensures |z| == k && AllDigits(z)
    ensures forall i :: 0 <= i < k ==> z[i] == '0'
  {
    seq(k, _ => '0')
  }

  /** `s.padStart(width, c)`: `s` itself when it is already `width` long or
      longer, otherwise `s` behind enough copies of `c` to reach `width`. */
  function PadStart(s: string, width: nat, c: char): (r: string)
    ensures |s| >= width ==> r == s
    ensures |s| < width ==> |r| == width
    ensures r[|r| - |s|..] == s
    ensures forall i :: 0 <= i < |r| - |s| ==> r[i] == c
  {
    if |s| >= width then s else seq(width - |s|, _ => c) + s
  }

  lemma {:induction false} ZerosValue(k: nat)
    ensures DigitsValue(Zeros(k)) == 0
  {
    if k > 0 {
      assert Zeros(k)[..k - 1] == Zeros(k - 1);
      ZerosValue(k - 1);
    }
  }

  /** Leading zeros do not change the value a digit string denotes. */
  lemma {:induction false} LeadingZerosValue(k: nat, s: string)
    requires AllDigits(s)
    ensures AllDigits(Zeros(k) + s)
    ensures DigitsValue(Zeros(k) + s) == DigitsValue(s)
  {
    var t := Zeros(k) + s;
    assert AllDigits(t) by {
      forall i | 0 <= i < |t|
        ensures IsDigit(t[i])
      {
        if i >= k {
          assert t[i] == s[i - k];
        }
      }
    }
    if s == [] {
      assert t == Zeros(k);
      ZerosValue(k);
    } else {
      var init := s[..|s| - 1];
      assert t[..|t| - 1] == Zeros(k) + init;
      assert t[|t| - 1] == s[|s| - 1];
      LeadingZerosValue(k, init);
    }
  }

  /** Zero-padding the spelling of `n` keeps it all digits and reading it
      back still gives `n`. */
  lemma ZeroPaddedValue(n: nat, width: nat)
    ensures AllDigits(PadStart(NatToString(n), width, '0'))
    ensures DigitsValue(PadStart(NatToString(n), width, '0')) == n
  {
    var s := NatToString(n);
    if |s| < width {
      assert PadStart(s, width, '0') == Zeros(width - |s|) + s;
      LeadingZerosValue(width - |s|, s);
    }
  }
}

=== FILE: integrations.dfy ===
/** The integrations page (app/integrations/page.tsx): two switches, e-mail
    notifications and Google Sheets export, the list of integration cards
    built from them, the Active/Available summary counts, and which setup
    panel each card shows. */
module Integrations {

  /** The page's two switches. */
  datatype Flags = Flags(email: bool, sheets: bool)

  /** E-mail starts on, Sheets off. */
  const InitialFlags: Flags := Flags(true, false)

  datatype Integration = Integration(
    id: string,
    name: string,
    enabled: bool,
    status: string,
    category: string,
    setup: bool)

  /** `handleToggle(id, enabled)`: the switch named by `id` takes the new
      value, the other keeps its own, and an unknown id changes nothing. */
  function HandleToggle(f: Flags, id: string, enabled: bool): (g: Flags)
    ensures id == "email" ==> g.email == enabled && g.sheets == f.sheets
    ensures id == "sheets" ==> g.sheets == enabled && g.email == f.email
    ensures id != "email" && id != "sheets" ==> g == f
  {
    if id == "email" then f.(email := enabled)
    else if id == "sheets" then f.(sheets := enabled)
    else f
  }

  /** Toggling to the same value twice is toggling once. */
  lemma ToggleIdempotent(f: Flags, id: string, enabled: bool)
    ensures HandleToggle(HandleToggle(f, id, enabled), id, enabled) == HandleToggle(f, id, enabled)
  {
  }

  /** Toggling back to the previous value restores the switches. */
  lemma ToggleUndo(f: Flags, id: string, enabled: bool)
    ensures id == "email" ==> HandleToggle(HandleToggle(f, id, enabled), id, f.email) == f
    ensures id == "sheets" ==> HandleToggle(HandleToggle(f, id, enabled), id, f.sheets) == f
  {
  }

  /** The two switches are independent: toggles of different ids commute. */
  lemma TogglesCommute(f: Flags, id1: string, b1: bool, id2: string, b2: bool)
    requires id1 != id2
    ensures HandleToggle(HandleToggle(f, id1, b1), id2, b2) == HandleToggle(HandleToggle(f, id2, b2), id1, b1)
  {
  }

  /** The `integrations` array: the e-mail card, which needs no external
      setup, then the Sheets card, which does. */
  function IntegrationList(f: Flags): (r: seq<Integration>)
    ensures |r| == 2
    ensures r[0].id == "email" && r[0].enabled == f.email && r[0].setup
    ensures r[1].id == "sheets" && r[1].enabled == f.sheets && !r[1].setup
  {
    [ Integration("email", "Email Notifications", f.email, "active", "notifications", true),
      Integration("sheets", "Google Sheets", f.sheets, "available", "export", false) ]
  }

  /** `integrations.filter(i => i.enabled == want).length`. */
  function CountEnabled(list: seq<Integration>, want: bool): (n: nat)
    ensures n <= |list|
    ensures n == |list| <==> forall j :: 0 <= j < |list| ==> list[j].enabled == want
  {
    if list == [] then 0
    else (if list[0].enabled == want then 1 else 0) + CountEnabled(list[1..], want)
  }

  /** Every card is either Active or Available, never both. */
  lemma {:induction false} ActivePlusAvailable(list: seq<Integration>)
    ensures CountEnabled(list, true) + CountEnabled(list, false) == |list|
  {
    if list != [] {
      ActivePlusAvailable(list[1..]);
    }
  }

  /** The summary counts for any switch setting: Active counts the switches
      that are on, and Active plus Available is always 2; the initial page
      shows 1 and 1. */
  lemma SummaryCounts(f: Flags)
    ensures CountEnabled(IntegrationList(f), true) == (if f.email then 1 else 0) + (if f.sheets then 1 else 0)
    ensures CountEnabled(IntegrationList(f), true) + CountEnabled(IntegrationList(f), false) == 2
    ensures f == InitialFlags ==> CountEnabled(IntegrationList(f), true) == 1 && CountEnabled(IntegrationList(f), false) == 1
  {
    var list := IntegrationList(f);
    assert list[1..][1..] == [];
    ActivePlusAvailable(list);
  }

  /** A card's status badge. */
  function StatusBadge(i: Integration): (caption: string)
    ensures caption == "Active" <==> i.enabled
  {
    if i.enabled then "Active" else "Inactive"
  }

  /** The settings panel of an enabled card that needs no setup. */
  predicate ShowsSettings(i: Integration) {
    i.enabled && i.setup
  }

  /** The notification-e-mail form inside that panel. */
  predicate ShowsEmailForm(i: Integration) {
    ShowsSettings(i) && i.id == "email"
  }

  /** The "Configure" button of an enabled card that needs setup. */
  predicate ShowsConfigure(i: Integration) {
    i.enabled && !i.setup
  }

  /** No card shows both the settings panel and the Configure button; the
      e-mail form is shown exactly while e-mail is on, the Configure button
      exactly while Sheets is on, and a disabled card shows neither. */
  lemma PanelsForFlags(f: Flags, j: nat)
    requires j < 2
    ensures var i := IntegrationList(f)[j];
            && !(ShowsSettings(i) && ShowsConfigure(i))
            && (!i.enabled ==> !ShowsSettings(i) && !ShowsConfigure(i))
    ensures ShowsEmailForm(IntegrationList(f)[0]) <==> f.email
    ensures ShowsConfigure(IntegrationList(f)[1]) <==> f.sheets
    ensures !ShowsEmailForm(IntegrationList(f)[1]) && !ShowsConfigure(IntegrationList(f)[0])
  {
  }
}

=== FILE: upload.dfy ===
/** The upload page's simulated processing pipeline (app/upload/page.tsx).

    The page keeps a list of file records and a credit counter. Dropping
    files appends one `uploading` record per accepted file and starts a
    repeating upload timer for it; each upload tick adds 10 to a counter the
    timer closes over and copies it into every record with the timer's id;
    the tick that reaches 100 stops the upload timer, switches the records to
    `processing` at 0 and starts a processing timer, whose ticks add 15 in
    the same way; the tick that reaches 100 stops it, marks the records
    `completed` at 100 with a mock extraction result and takes one credit,
    never going below 0. Removing a file filters its records out of the list
    but leaves its timer running.

    Every timer callback is one atomic step (JavaScript callbacks do not
    interleave). The timers live beside the list, exactly as the closures do
    in the page: a `Page` holds the records, the credits and one `Timer` per
    dropped file, indexed by the order the timers were started. A stopped
    timer stays in that sequence as `Cleared`, so the number of cleared
    timers is the number of completions so far. */
module Upload {
  import opened Common
  import Decimal

  /** A record id, drawn from `Math.random` and not guaranteed unique. */
  type Id = string

  /** One draw of `Math.random()`. */
  type Random = r: real | 0.0 <= r < 1.0

  /** The part of a browser `File` the page looks at. */
  datatype FileRef = FileRef(name: string, mimeType: string, size: int)

  /** The drop zone's size bound: 10 MiB. */
  const MaxFileSize: int := 10 * 1024 * 1024

  /** The mock credit balance the page starts with. */
  const InitialCredits: int := 8

  /** The low-credit warning shows at or below this balance. */
  const LowCreditThreshold: int := 2

  const UploadStep: int := 10
  const ProcessStep: int := 15

  const Vendors: seq<string> := ["Tech Solutions Ltd", "Office Supplies Co", "Manufacturing Inc"]

  datatype Status = Uploading | Processing | Completed | Failed

  /** The mock extraction result of a completed file. */
  datatype Extraction = Extraction(poNumber: string, vendorName: string, totalAmount: int, lineItems: int)

  datatype UploadedFile = UploadedFile(
    file: FileRef,
    id: Id,
    status: Status,
    progress: int,
    result: Option<Extraction>,
    error: Option<string>)

  /** What a file's timer is doing: counting in the upload interval, counting
      in the processing interval, or stopped after completion. */
  datatype Phase = UploadPhase(count: int) | ProcessPhase(count: int) | Cleared

  datatype Timer = Timer(fileId: Id, phase: Phase)

  datatype Page = Page(files: seq<UploadedFile>, credits: int, timers: seq<Timer>)

  /** A selected file together with the id the page would draw for it. */
  datatype Arrival = Arrival(file: FileRef, id: Id)

  /** The four `Math.random()` draws the mock result is built from. */
  datatype Draws = Draws(poNumber: Random, vendor: Random, amount: Random, lineItems: Random)

  /** What the user sees: an empty list and the mock balance. */
  const Init: Page := Page([], InitialCredits, [])

  // ---------------------------------------------------------------------
  // Intake

  predicate EndsWith(name: string, ext: string) {
    |ext| <= |name| && name[|name| - |ext|..] == ext
  }

  /** The drop zone's accept list: PDF, e-mail and plain-text files, matched
      by media type or by file extension. */
  predicate AcceptedType(f: FileRef) {
    || f.mimeType == "application/pdf" || EndsWith(f.name, ".pdf")
    || f.mimeType == "message/rfc822" || EndsWith(f.name, ".eml")
    || f.mimeType == "text/plain" || EndsWith(f.name, ".txt")
  }

  predicate Acceptable(f: FileRef) {
    AcceptedType(f) && f.size <= MaxFileSize
  }

  datatype Selection = Selection(accepted: seq<Arrival>, rejected: seq<Arrival>)

  /** The files of a selection the drop zone hands to `onDrop`, in order. */
  function AcceptedOf(selected: seq<Arrival>): seq<Arrival> {
    if selected == [] then []
    else (if Acceptable(selected[0].file) then [selected[0]] else []) + AcceptedOf(selected[1..])
  }

  /** The files of a selection the drop zone rejects, in order. */
  function RejectedOf(selected: seq<Arrival>): seq<Arrival> {
    if selected == [] then []
    else (if Acceptable(selected[0].file) then [] else [selected[0]]) + RejectedOf(selected[1..])
  }

  lemma {:induction false} IntakeMembers(selected: seq<Arrival>)
    ensures |AcceptedOf(selected)| + |RejectedOf(selected)| == |selected|
    ensures forall a :: a in AcceptedOf(selected) <==> a in selected && Acceptable(a.file)
    ensures forall a :: a in RejectedOf(selected) <==> a in selected && !Acceptable(a.file)
  {
    if selected != [] {
      IntakeMembers(selected[1..]);
      assert forall a :: a in selected <==> a == selected[0] || a in selected[1..];
    }
  }

  /** The drop zone's split of a selection: every selected file lands in
      exactly one of the two lists, the accepted ones being exactly those of
      an accepted type within the size bound. */
  function Intake(selected: seq<Arrival>): (r: Selection)
    ensures |r.accepted| + |r.rejected| == |selected|
    ensures forall a :: a in r.accepted <==> a in selected && Acceptable(a.file)
    ensures forall a :: a in r.rejected <==> a in selected && !Acceptable(a.file)
  {
    IntakeMembers(selected);
    Selection(AcceptedOf(selected), RejectedOf(selected))
  }

  lemma {:induction false} AcceptedOfAppend(a: seq<Arrival>, b: seq<Arrival>)
    ensures AcceptedOf(a + b) == AcceptedOf(a) + AcceptedOf(b)
  {
    if a == [] {
      assert a + b == b;
    } else {
      assert (a + b)[0] == a[0] && (a + b)[1..] == a[1..] + b;
      AcceptedOfAppend(a[1..], b);
      var h := if Acceptable(a[0].file) then [a[0]] else [];
      assert AcceptedOf(a + b) == h + AcceptedOf(a[1..] + b);
      assert AcceptedOf(a) == h + AcceptedOf(a[1..]);
    }
  }

  lemma {:induction false} RejectedOfAppend(a: seq<Arrival>, b: seq<Arrival>)
    ensures RejectedOf(a + b) == RejectedOf(a) + RejectedOf(b)
  {
    if a == [] {
      assert a + b == b;
    } else {
      assert (a + b)[0] == a[0] && (a + b)[1..] == a[1..] + b;
      RejectedOfAppend(a[1..], b);
      var h := if Acceptable(a[0].file) then [] else [a[0]];
      assert RejectedOf(a + b) == h + RejectedOf(a[1..] + b);
      assert RejectedOf(a) == h + RejectedOf(a[1..]);
    }
  }

  /** Splitting a selection in two and taking each half in turn accepts and
      rejects the same files in the same order, so each list keeps selection
      order. */
  lemma IntakeAppend(a: seq<Arrival>, b: seq<Arrival>)
    ensures Intake(a + b).accepted == Intake(a).accepted + Intake(b).accepted
    ensures Intake(a + b).rejected == Intake(a).rejected + Intake(b).rejected
  {
    AcceptedOfAppend(a, b);
    RejectedOfAppend(a, b);
  }

  /** A 15 MiB PDF exceeds the 10 MiB bound: it is rejected and nothing is
      accepted. */
  lemma OversizedFileRejected(id: Id)
    ensures var a := Arrival(FileRef("po.pdf", "application/pdf", 15 * 1024 * 1024), id);
            Intake([a]) == Selection([], [a])
  {
  }

  // ---------------------------------------------------------------------
  // Mock extraction result

  /** `Math.floor(r * n)`: a uniform pick in `[0, n)`. */
  function RandomBelow(r: Random, n: nat): (k: nat)
    requires n > 0
    ensures k < n
    ensures k as real <= r * n as real < (k + 1) as real
  {
    var x := r * n as real;
    ScaleBounds(r, n as real);
    x.Floor
  }

  lemma ScaleBounds(r: real, n: real)
    requires 0.0 <= r < 1.0 && 0.0 < n
    ensures 0.0 <= r * n < n
  {
    assert r * n < 1.0 * n;
  }

  /** The PO number's three-digit suffix: the pick padded with zeros. */
  function PoSuffix(k: nat): (s: string)
    requires k < 1000
    ensures |s| == 3 && Decimal.AllDigits(s) && Decimal.DigitsValue(s) == k
  {
    Decimal.NatToStringBelow1000(k);
    Decimal.ZeroPaddedValue(k, 3);
    Decimal.PadStart(Decimal.NatToString(k), 3, '0')
  }

  /** The shape every mock result has: a PO number "PO-2024-" plus three
      digits, one of the three vendors, an amount in [5000, 104999] and
      between 1 and 10 line items. */
  predicate WellFormedExtraction(e: Extraction) {
    && |e.poNumber| == 11
    && e.poNumber[..8] == "PO-2024-"
    && Decimal.AllDigits(e.poNumber[8..])
    && e.vendorName in Vendors
    && 5000 <= e.totalAmount <= 104999
    && 1 <= e.lineItems <= 10
  }

  function MockResult(d: Draws): (e: Extraction)
    ensures WellFormedExtraction(e)
  {
    var po := "PO-2024-" + PoSuffix(RandomBelow(d.poNumber, 1000));
    assert po[..8] == "PO-2024-" && po[8..] == PoSuffix(RandomBelow(d.poNumber, 1000));
    Extraction(
      po,
      Vendors[RandomBelow(d.vendor, 3)],
      RandomBelow(d.amount, 100000) + 5000,
      RandomBelow(d.lineItems, 10) + 1)
  }

  /** Every field of the mock result reads back as the draw it came from. */
  lemma MockResultReadsBack(d: Draws)
    ensures var e := MockResult(d);
            && Decimal.DigitsValue(e.poNumber[8..]) == RandomBelow(d.poNumber, 1000)
            && e.vendorName == Vendors[RandomBelow(d.vendor, 3)]
            && e.totalAmount - 5000 == RandomBelow(d.amount, 100000)
            && e.lineItems - 1 == RandomBelow(d.lineItems, 10)
  {
    var po := "PO-2024-" + PoSuffix(RandomBelow(d.poNumber, 1000));
    assert po[8..] == PoSuffix(RandomBelow(d.poNumber, 1000));
  }

  // ---------------------------------------------------------------------
  // Record updates

  /** The three record updates the timers write. */
  datatype Patch = SetProgress(value: int) | StartProcessing | Complete(result: Extraction)

  function ApplyPatch(f: UploadedFile, patch: Patch): UploadedFile {
    match patch
    case SetProgress(v) => f.(progress := v)
    case StartProcessing => f.(status := Processing, progress := 0)
    case Complete(e) => f.(status := Completed, progress := 100, result := Some(e))
  }

  /** One `prev.map(f => f.id === fileId ? {...} : f)`: the patch applied to
      every record carrying the id, every other record kept, order kept. */
  function PatchMatching(files: seq<UploadedFile>, id: Id, patch: Patch): (r: seq<UploadedFile>)
    ensures |r| == |files|
    ensures forall j :: 0 <= j < |files| ==> r[j].id == files[j].id
    ensures forall j :: 0 <= j < |files| && files[j].id != id ==> r[j] == files[j]
    ensures forall j :: 0 <= j < |files| && files[j].id == id ==> r[j] == ApplyPatch(files[j], patch)
  {
    if files == [] then []
    else [if files[0].id == id then ApplyPatch(files[0], patch) else files[0]] + PatchMatching(files[1..], id, patch)
  }

  predicate DistinctIds(files: seq<UploadedFile>) {
    forall j, j' :: 0 <= j < j' < |files| ==> files[j].id != files[j'].id
  }

  /** `prev.filter(f => f.id !== fileId)`. */
  function Without(files: seq<UploadedFile>, id: Id): (r: seq<UploadedFile>)
    ensures |r| <= |files|
    ensures forall f :: f in r <==> f in files && f.id != id
    ensures DistinctIds(files) ==> DistinctIds(r)
  {
    if files == [] then
      []
    else
      var rest := Without(files[1..], id);
      assert forall f :: f in files <==> f == files[0] || f in files[1..];
      if files[0].id == id then rest else [files[0]] + rest
  }

  /** Filtering distributes over concatenation, so the records kept keep
      their order. */
  lemma {:induction false} WithoutAppend(a: seq<UploadedFile>, b: seq<UploadedFile>, id: Id)
    ensures Without(a + b, id) == Without(a, id) + Without(b, id)
  {
    if a == [] {
      assert a + b == b;
    } else {
      assert (a + b)[0] == a[0] && (a + b)[1..] == a[1..] + b;
      WithoutAppend(a[1..], b, id);
    }
  }

  /** A list holding no record with the id is left as it is. */
  lemma {:induction false} WithoutAbsent(files: seq<UploadedFile>, id: Id)
    requires forall j :: 0 <= j < |files| ==> files[j].id != id
    ensures Without(files, id) == files
  {
    if files != [] {
      WithoutAbsent(files[1..], id);
    }
  }

  // ---------------------------------------------------------------------
  // The three events

  function NewRecord(a: Arrival): UploadedFile {
    UploadedFile(a.file, a.id, Uploading, 0, None, None)
  }

  /** `onDrop`: one `uploading` record at 0 per accepted file, appended in
      order, and one upload timer started per file. */
  function Drop(p: Page, batch: seq<Arrival>): (q: Page)
    ensures |q.files| == |p.files| + |batch| && q.files[..|p.files|] == p.files
    ensures forall j :: 0 <= j < |batch| ==>
              q.files[|p.files| + j] == UploadedFile(batch[j].file, batch[j].id, Uploading, 0, None, None)
    ensures |q.timers| == |p.timers| + |batch| && q.timers[..|p.timers|] == p.timers
    ensures forall j :: 0 <= j < |batch| ==> q.timers[|p.timers| + j] == Timer(batch[j].id, UploadPhase(0))
    ensures q.credits == p.credits
  {
    Page(
      p.files + seq(|batch|, j requires 0 <= j < |batch| => NewRecord(batch[j])),
      p.credits,
      p.timers + seq(|batch|, j requires 0 <= j < |batch| => Timer(batch[j].id, UploadPhase(0))))
  }

  /** A timer the scheduler may fire: started and not yet cleared. */
  predicate Live(p: Page, k: nat) {
    k < |p.timers| && !p.timers[k].phase.Cleared?
  }

  /** The upload interval's callback at count `n`: add 10 and copy it into
      the records; at 100 stop, switch the records to `processing` at 0 and
      start the processing count. */
  function UploadTick(p: Page, k: nat, n: int): (q: Page)
    requires k < |p.timers|
    ensures |q.files| == |p.files| && q.credits == p.credits
    ensures |q.timers| == |p.timers|
    ensures q.timers == p.timers[k := q.timers[k]] && q.timers[k].fileId == p.timers[k].fileId
    ensures q.timers[k].phase == if n + UploadStep >= 100 then ProcessPhase(0) else UploadPhase(n + UploadStep)
  {
    var id := p.timers[k].fileId;
    var progress := n + UploadStep;
    var files := PatchMatching(p.files, id, SetProgress(progress));
    if progress >= 100 then
      Page(PatchMatching(files, id, StartProcessing), p.credits, p.timers[k := Timer(id, ProcessPhase(0))])
    else
      Page(files, p.credits, p.timers[k := Timer(id, UploadPhase(progress))])
  }

  /** The processing interval's callback at count `n`: add 15 and copy it
      into the records; at 100 or more stop, mark the records `completed` at
      100 with the mock result and take one credit, clamped at 0. */
  function ProcessTick(p: Page, k: nat, n: int, d: Draws): (q: Page)
    requires k < |p.timers|
    ensures |q.files| == |p.files|
    ensures |q.timers| == |p.timers|
    ensures q.timers == p.timers[k := q.timers[k]] && q.timers[k].fileId == p.timers[k].fileId
    ensures q.timers[k].phase == if n + ProcessStep >= 100 then Cleared else ProcessPhase(n + ProcessStep)
    ensures q.credits == if q.timers[k].phase.Cleared? then Max(0, p.credits - 1) else p.credits
  {
    var id := p.timers[k].fileId;
    var progress := n + ProcessStep;
    var files := PatchMatching(p.files, id, SetProgress(progress));
    if progress >= 100 then
      Page(PatchMatching(files, id, Complete(MockResult(d))), Max(0, p.credits - 1), p.timers[k := Timer(id, Cleared)])
    else
      Page(files, p.credits, p.timers[k := Timer(id, ProcessPhase(progress))])
  }

  /** One interval callback of timer `k`. Only the records with the timer's
      id and the timer itself change; the balance falls (clamped at 0)
      exactly when the callback clears the timer. The processing callback
      that completes draws the mock result from `d`; others ignore it. */
  function Tick(p: Page, k: nat, d: Draws): (q: Page)
    requires Live(p, k)
    ensures |q.files| == |p.files|
    ensures forall j :: 0 <= j < |p.files| ==> q.files[j].id == p.files[j].id
    ensures forall j :: 0 <= j < |p.files| && p.files[j].id != p.timers[k].fileId ==> q.files[j] == p.files[j]
    ensures |q.timers| == |p.timers|
    ensures q.timers == p.timers[k := q.timers[k]] && q.timers[k].fileId == p.timers[k].fileId
    ensures q.credits == if q.timers[k].phase.Cleared? then Max(0, p.credits - 1) else p.credits
  {
    match p.timers[k].phase
    case UploadPhase(n) => UploadTick(p, k, n)
    case ProcessPhase(n) => ProcessTick(p, k, n, d)
  }

  /** `removeFile`: the records with the id leave the list; the credits and
      the timers (including the file's own) are untouched. */
  function RemoveFile(p: Page, id: Id): (q: Page)
    ensures forall f :: f in q.files <==> f in p.files && f.id != id
    ensures q.credits == p.credits && q.timers == p.timers
  {
    p.(files := Without(p.files, id))
  }

  datatype Event = DropEvent(selected: seq<Arrival>) | TickEvent(timer: nat, draws: Draws) | RemoveEvent(id: Id)

  /** One atomic event. A drop hands only the accepted files to `onDrop`; a
      tick of a timer that was never started or is cleared does not fire. */
  function Step(p: Page, e: Event): Page {
    match e
    case DropEvent(selected) => Drop(p, Intake(selected).accepted)
    case TickEvent(k, d) => if Live(p, k) then Tick(p, k, d) else p
    case RemoveEvent(id) => RemoveFile(p, id)
  }

  function Run(p: Page, events: seq<Event>): Page
    decreases |events|
  {
    if events == [] then p else Run(Step(p, events[0]), events[1..])
  }

  /** The low-credit warning condition. */
  predicate LowCredits(credits: int) {
    credits <= LowCreditThreshold
  }

  // ---------------------------------------------------------------------
  // Counting completions

  /** The number of stopped timers: each was stopped by its completion. */
  function Completions(ts: seq<Timer>): (n: nat)
    ensures n <= |ts|
  {
    if ts == [] then 0
    else Completions(ts[..|ts| - 1]) + (if ts[|ts| - 1].phase.Cleared? then 1 else 0)
  }

  lemma {:induction false} CompletionsAppendLive(ts: seq<Timer>, started: seq<Timer>)
    requires forall i :: 0 <= i < |started| ==> !started[i].phase.Cleared?
    ensures Completions(ts + started) == Completions(ts)
  {
    if started == [] {
      assert ts + started == ts;
    } else {
      var init := started[..|started| - 1];
      assert (ts + started)[..|ts + started| - 1] == ts + init;
      assert (ts + started)[|ts + started| - 1] == started[|started| - 1];
      CompletionsAppendLive(ts, init);
    }
  }

  /** Replacing one timer changes the count by what the replacement changes
      at that position. */
  lemma {:induction false} CompletionsUpdate(ts: seq<Timer>, k: nat, t: Timer)
    requires k < |ts|
    ensures Completions(ts[k := t]) ==
            Completions(ts) - (if ts[k].phase.Cleared? then 1 else 0) + (if t.phase.Cleared? then 1 else 0)
  {
    var last := |ts| - 1;
    if k == last {
      assert ts[k := t][..last] == ts[..last];
    } else {
      assert ts[k := t][..last] == ts[..last][k := t];
      CompletionsUpdate(ts[..last], k, t);
    }
  }

  // ---------------------------------------------------------------------
  // Safety: holds in every run, whatever ids Math.random produces

  predicate TimerOk(t: Timer) {
    match t.phase
    case UploadPhase(n) => 0 <= n < 100 && n % UploadStep == 0
    case ProcessPhase(n) => 0 <= n < 100 && n % ProcessStep == 0
    case Cleared => true
  }

  predicate FileOk(f: UploadedFile) {
    && f.status != Failed
    && f.error == None
    && 0 <= f.progress <= 100
    && (f.status == Completed ==> f.result.Some? && WellFormedExtraction(f.result.value))
  }

  /** No record is failed or carries an error, every progress is in
      [0, 100], every completed record has a well-formed result, and the
      balance is the starting balance less one per completion, clamped at 0. */
  predicate Safe(p: Page) {
    && (forall i :: 0 <= i < |p.timers| ==> TimerOk(p.timers[i]))
    && (forall j :: 0 <= j < |p.files| ==> FileOk(p.files[j]))
    && p.credits == Max(0, InitialCredits - Completions(p.timers))
  }

  lemma DropSafe(p: Page, batch: seq<Arrival>)
    requires Safe(p)
    ensures Safe(Drop(p, batch))
  {
    var q := Drop(p, batch);
    assert q.timers == p.timers + q.timers[|p.timers|..];
    CompletionsAppendLive(p.timers, q.timers[|p.timers|..]);
  }

  lemma UploadTickSafe(p: Page, k: nat, n: int)
    requires Safe(p) && k < |p.timers| && p.timers[k].phase == UploadPhase(n)
    ensures Safe(UploadTick(p, k, n))
  {
    var q := UploadTick(p, k, n);
    assert TimerOk(p.timers[k]);
    CompletionsUpdate(p.timers, k, q.timers[k]);
    forall j | 0 <= j < |q.files|
      ensures FileOk(q.files[j])
    {
      assert FileOk(p.files[j]);
    }
  }

  /** A completing callback leaves a well-formed record well-formed: the
      transient 105 is overwritten by 100 and the result is well-formed. */
  lemma CompleteKeepsFileOk(f: UploadedFile, v: int, e: Extraction)
    requires FileOk(f) && WellFormedExtraction(e)
    ensures FileOk(ApplyPatch(ApplyPatch(f, SetProgress(v)), Complete(e)))
  {
  }

  lemma ProcessTickFilesOk(p: Page, k: nat, n: int, d: Draws)
    requires k < |p.timers| && p.timers[k].phase == ProcessPhase(n) && TimerOk(p.timers[k])
    requires forall j :: 0 <= j < |p.files| ==> FileOk(p.files[j])
    ensures forall j :: 0 <= j < |p.files| ==> FileOk(ProcessTick(p, k, n, d).files[j])
  {
    var id := p.timers[k].fileId;
    var progress := n + ProcessStep;
    var files := PatchMatching(p.files, id, SetProgress(progress));
    var q := ProcessTick(p, k, n, d);
    forall j | 0 <= j < |p.files|
      ensures FileOk(q.files[j])
    {
      assert FileOk(p.files[j]);
      if p.files[j].id == id && progress >= 100 {
        assert q.files[j] == ApplyPatch(files[j], Complete(MockResult(d)));
        CompleteKeepsFileOk(p.files[j], progress, MockResult(d));
      }
    }
  }

  lemma ProcessTickSafe(p: Page, k: nat, n: int, d: Draws)
    requires Safe(p) && k < |p.timers| && p.timers[k].phase == ProcessPhase(n)
    ensures Safe(ProcessTick(p, k, n, d))
  {
    var q := ProcessTick(p, k, n, d);
    assert TimerOk(p.timers[k]);
    CompletionsUpdate(p.timers, k, q.timers[k]);
    ProcessTickFilesOk(p, k, n, d);
  }

  lemma TickSafe(p: Page, k: nat, d: Draws)
    requires Safe(p) && Live(p, k)
    ensures Safe(Tick(p, k, d))
  {
    match p.timers[k].phase
    case UploadPhase(n) => UploadTickSafe(p, k, n);
    case ProcessPhase(n) => ProcessTickSafe(p, k, n, d);
  }

  lemma RemoveSafe(p: Page, id: Id)
    requires Safe(p)
    ensures Safe(RemoveFile(p, id))
  {
    var q := RemoveFile(p, id);
    forall j | 0 <= j < |q.files|
      ensures FileOk(q.files[j])
    {
      assert q.files[j] in p.files;
    }
  }

  lemma StepSafe(p: Page, e: Event)
    requires Safe(p)
    ensures Safe(Step(p, e))
  {
    match e
    case DropEvent(selected) => DropSafe(p, Intake(selected).accepted);
    case TickEvent(k, d) => if Live(p, k) { TickSafe(p, k, d); }
    case RemoveEvent(id) => RemoveSafe(p, id);
  }

  /** In every run from the initial page, in any interleaving of drops,
      ticks and removals: no record is ever failed or carries an error,
      progress stays in [0, 100], and after K completions the balance is
      max(0, 8 - K). */
  lemma {:induction false} RunSafe(p: Page, events: seq<Event>)
    requires Safe(p)
    ensures Safe(Run(p, events))
    decreases |events|
  {
    if events != [] {
      StepSafe(p, events[0]);
      RunSafe(Step(p, events[0]), events[1..]);
    }
  }

  /** The base case of `RunSafe`: the initial page is safe. */
  lemma InitSafe()
    ensures Safe(Init)
  {
  }

  /** The warning shows exactly when at least six files have completed. */
  lemma {:induction false} LowCreditsAfterSixCompletions(events: seq<Event>)
    ensures var p := Run(Init, events);
            && p.credits >= 0
            && (LowCredits(p.credits) <==> Completions(p.timers) >= 6)
  {
    InitSafe();
    RunSafe(Init, events);
  }

  /** Whatever the page, one event adds at most one completion: a drop adds
      running timers, a tick clears at most its own, a removal none. */
  lemma StepCompletions(p: Page, e: Event)
    ensures var q := Step(p, e);
            Completions(p.timers) <= Completions(q.timers) <= Completions(p.timers) + 1
  {
    match e
    case DropEvent(selected) =>
      var q := Drop(p, Intake(selected).accepted);
      assert q.timers == p.timers + q.timers[|p.timers|..];
      CompletionsAppendLive(p.timers, q.timers[|p.timers|..]);
    case TickEvent(k, d) =>
      if Live(p, k) {
        var q := Tick(p, k, d);
        CompletionsUpdate(p.timers, k, q.timers[k]);
      }
    case RemoveEvent(id) =>
  }

  /** Completions only accumulate and the balance only falls, one event at a
      time, by at most one. */
  lemma StepMonotone(p: Page, e: Event)
    requires Safe(p)
    ensures var q := Step(p, e);
            && Completions(p.timers) <= Completions(q.timers) <= Completions(p.timers) + 1
            && p.credits - 1 <= q.credits <= p.credits
  {
    StepSafe(p, e);
    StepCompletions(p, e);
  }

  // ---------------------------------------------------------------------
  // Coherence: holds when every dropped file gets a started id

  function TimerIds(ts: seq<Timer>): set<Id> {
    set i | 0 <= i < |ts| :: ts[i].fileId
  }

  /** The ids drawn for a drop are distinct and differ from every id the
      page has handed out so far. */
  predicate FreshBatch(p: Page, batch: seq<Arrival>) {
    && (forall j, j' :: 0 <= j < j' < |batch| ==> batch[j].id != batch[j'].id)
    && (forall j :: 0 <= j < |batch| ==> batch[j].id !in TimerIds(p.timers))
  }

  predicate FreshEvent(p: Page, e: Event) {
    e.DropEvent? ==> FreshBatch(p, Intake(e.selected).accepted)
  }

  predicate FreshRun(p: Page, events: seq<Event>)
    decreases |events|
  {
    events != [] ==> FreshEvent(p, events[0]) && FreshRun(Step(p, events[0]), events[1..])
  }

  /** A record agrees with its timer: uploading or processing at the
      timer's count while the timer runs, completed at 100 once cleared. */
  predicate Agrees(f: UploadedFile, phase: Phase) {
    match phase
    case UploadPhase(n) => f.status == Uploading && f.progress == n && f.result == None
    case ProcessPhase(n) => f.status == Processing && f.progress == n && f.result == None
    case Cleared => f.status == Completed && f.progress == 100
  }

  predicate TimerIdsDistinct(ts: seq<Timer>) {
    forall i, i' :: 0 <= i < i' < |ts| ==> ts[i].fileId != ts[i'].fileId
  }

  /** Every record was dropped together with a timer. */
  predicate Covered(files: seq<UploadedFile>, ts: seq<Timer>) {
    forall j :: 0 <= j < |files| ==> files[j].id in TimerIds(ts)
  }

  predicate AllAgree(files: seq<UploadedFile>, ts: seq<Timer>) {
    forall j, i :: 0 <= j < |files| && 0 <= i < |ts| && files[j].id == ts[i].fileId ==> Agrees(files[j], ts[i].phase)
  }

  predicate Coherent(p: Page) {
    && Safe(p)
    && TimerIdsDistinct(p.timers)
    && DistinctIds(p.files)
    && Covered(p.files, p.timers)
    && AllAgree(p.files, p.timers)
  }

  lemma DropTimerIds(p: Page, batch: seq<Arrival>)
    ensures TimerIds(Drop(p, batch).timers) == TimerIds(p.timers) + set j | 0 <= j < |batch| :: batch[j].id
  {
    var q := Drop(p, batch);
    var n := |p.timers|;
    forall x | x in TimerIds(q.timers)
      ensures x in TimerIds(p.timers) || exists j :: 0 <= j < |batch| && batch[j].id == x
    {
      var i :| 0 <= i < |q.timers| && q.timers[i].fileId == x;
      if i < n {
        assert p.timers[i] == q.timers[i];
      } else {
        assert batch[i - n].id == x;
      }
    }
    forall j | 0 <= j < |batch|
      ensures batch[j].id in TimerIds(q.timers)
    {
      assert q.timers[n + j].fileId == batch[j].id;
    }
    forall i | 0 <= i < n
      ensures p.timers[i].fileId in TimerIds(q.timers)
    {
      assert q.timers[i] == p.timers[i];
    }
  }

  lemma DropKeepsIdsDistinct(p: Page, batch: seq<Arrival>)
    requires TimerIdsDistinct(p.timers) && DistinctIds(p.files) && Covered(p.files, p.timers) && FreshBatch(p, batch)
    ensures TimerIdsDistinct(Drop(p, batch).timers) && DistinctIds(Drop(p, batch).files)
  {
    var q := Drop(p, batch);
    var m, n := |p.files|, |p.timers|;
    forall i, i' | 0 <= i < i' < |q.timers|
      ensures q.timers[i].fileId != q.timers[i'].fileId
    {
      if i < n {
        assert q.timers[i].fileId in TimerIds(p.timers);
      }
    }
    forall j, j' | 0 <= j < j' < |q.files|
      ensures q.files[j].id != q.files[j'].id
    {
      if j < m {
        assert q.files[j].id in TimerIds(p.timers);
      }
    }
  }

  lemma DropKeepsCovered(p: Page, batch: seq<Arrival>)
    requires Covered(p.files, p.timers)
    ensures Covered(Drop(p, batch).files, Drop(p, batch).timers)
  {
    var q := Drop(p, batch);
    var m := |p.files|;
    DropTimerIds(p, batch);
    forall j | 0 <= j < |q.files|
      ensures q.files[j].id in TimerIds(q.timers)
    {
      if j >= m {
        assert q.files[j].id == batch[j - m].id;
      } else {
        assert q.files[j] == p.files[j];
      }
    }
  }

  lemma DropKeepsAgreement(p: Page, batch: seq<Arrival>)
    requires Covered(p.files, p.timers) && AllAgree(p.files, p.timers) && FreshBatch(p, batch)
    ensures AllAgree(Drop(p, batch).files, Drop(p, batch).timers)
  {
    var q := Drop(p, batch);
    var m, n := |p.files|, |p.timers|;
    forall j, i | 0 <= j < |q.files| && 0 <= i < |q.timers| && q.files[j].id == q.timers[i].fileId
      ensures Agrees(q.files[j], q.timers[i].phase)
    {
      if j < m && i < n {
        assert q.files[j] == p.files[j] && q.timers[i] == p.timers[i];
      } else if j >= m && i >= n {
        assert q.files[j] == NewRecord(batch[j - m]);
        assert q.timers[i].phase == UploadPhase(0);
      }
    }
  }

  lemma DropCoherent(p: Page, batch: seq<Arrival>)
    requires Coherent(p) && FreshBatch(p, batch)
    ensures Coherent(Drop(p, batch))
  {
    DropSafe(p, batch);
    DropKeepsIdsDistinct(p, batch);
    DropKeepsCovered(p, batch);
    DropKeepsAgreement(p, batch);
  }

  /** What an upload callback does to one record with its timer's id: the
      count plus 10, or, at 100, `processing` at 0 with the processing
      count started. */
  lemma UploadTickRecord(p: Page, k: nat, n: int, j: nat)
    requires k < |p.timers| && p.timers[k].phase == UploadPhase(n)
    requires j < |p.files| && p.files[j].id == p.timers[k].fileId
    ensures var q := UploadTick(p, k, n);
            if n + UploadStep >= 100 then
              && q.timers[k].phase == ProcessPhase(0)
              && q.files[j] == p.files[j].(status := Processing, progress := 0)
            else
              && q.timers[k].phase == UploadPhase(n + UploadStep)
              && q.files[j] == p.files[j].(progress := n + UploadStep)
  {
    var files := PatchMatching(p.files, p.timers[k].fileId, SetProgress(n + UploadStep));
    assert files[j] == ApplyPatch(p.files[j], SetProgress(n + UploadStep));
  }

  lemma UploadTickRecordAgrees(p: Page, k: nat, n: int, j: nat)
    requires k < |p.timers| && p.timers[k].phase == UploadPhase(n)
    requires j < |p.files| && p.files[j].id == p.timers[k].fileId && Agrees(p.files[j], p.timers[k].phase)
    ensures Agrees(UploadTick(p, k, n).files[j], UploadTick(p, k, n).timers[k].phase)
  {
    UploadTickRecord(p, k, n, j);
  }

  /** What a processing callback does to one record with its timer's id. */
  lemma ProcessTickRecord(p: Page, k: nat, n: int, d: Draws, j: nat)
    requires k < |p.timers| && p.timers[k].phase == ProcessPhase(n)
    requires j < |p.files| && p.files[j].id == p.timers[k].fileId
    ensures var q := ProcessTick(p, k, n, d);
            if n + ProcessStep >= 100 then
              && q.timers[k].phase == Cleared
              && q.files[j] == p.files[j].(status := Completed, progress := 100, result := Some(MockResult(d)))
            else
              && q.timers[k].phase == ProcessPhase(n + ProcessStep)
              && q.files[j] == p.files[j].(progress := n + ProcessStep)
  {
    var files := PatchMatching(p.files, p.timers[k].fileId, SetProgress(n + ProcessStep));
    assert files[j] == ApplyPatch(p.files[j], SetProgress(n + ProcessStep));
  }

  lemma ProcessTickRecordAgrees(p: Page, k: nat, n: int, d: Draws, j: nat)
    requires k < |p.timers| && p.timers[k].phase == ProcessPhase(n)
    requires j < |p.files| && p.files[j].id == p.timers[k].fileId && Agrees(p.files[j], p.timers[k].phase)
    ensures Agrees(ProcessTick(p, k, n, d).files[j], ProcessTick(p, k, n, d).timers[k].phase)
  {
    ProcessTickRecord(p, k, n, d, j);
  }

  /** The record a callback updates stays in step with the callback's timer. */
  lemma TickRecordAgrees(p: Page, k: nat, d: Draws, j: nat)
    requires Live(p, k) && TimerOk(p.timers[k])
    requires j < |p.files| && p.files[j].id == p.timers[k].fileId && Agrees(p.files[j], p.timers[k].phase)
    ensures Agrees(Tick(p, k, d).files[j], Tick(p, k, d).timers[k].phase)
  {
    match p.timers[k].phase
    case UploadPhase(n) => UploadTickRecordAgrees(p, k, n, j);
    case ProcessPhase(n) => ProcessTickRecordAgrees(p, k, n, d, j);
  }

  lemma TickKeepsAgreement(p: Page, k: nat, d: Draws)
    requires Safe(p) && Live(p, k) && TimerIdsDistinct(p.timers) && AllAgree(p.files, p.timers)
    ensures AllAgree(Tick(p, k, d).files, Tick(p, k, d).timers)
  {
    var q := Tick(p, k, d);
    var id := p.timers[k].fileId;
    assert TimerOk(p.timers[k]);
    forall j, i | 0 <= j < |q.files| && 0 <= i < |q.timers| && q.files[j].id == q.timers[i].fileId
      ensures Agrees(q.files[j], q.timers[i].phase)
    {
      if i == k {
        TickRecordAgrees(p, k, d, j);
      } else {
        assert p.files[j].id != id;
      }
    }
  }

  lemma TickCoherent(p: Page, k: nat, d: Draws)
    requires Coherent(p) && Live(p, k)
    ensures Coherent(Tick(p, k, d))
  {
    TickSafe(p, k, d);
    TickKeepsAgreement(p, k, d);
    var q := Tick(p, k, d);
    assert TimerIds(q.timers) == TimerIds(p.timers) by {
      assert forall i :: 0 <= i < |p.timers| ==> q.timers[i].fileId == p.timers[i].fileId;
    }
  }

  lemma RemoveCoherent(p: Page, id: Id)
    requires Coherent(p)
    ensures Coherent(RemoveFile(p, id))
  {
    RemoveSafe(p, id);
    var q := RemoveFile(p, id);
    forall j | 0 <= j < |q.files|
      ensures q.files[j].id in TimerIds(q.timers)
    {
      var j0 :| 0 <= j0 < |p.files| && p.files[j0] == q.files[j];
    }
    forall j, i | 0 <= j < |q.files| && 0 <= i < |q.timers| && q.files[j].id == q.timers[i].fileId
      ensures Agrees(q.files[j], q.timers[i].phase)
    {
      var j0 :| 0 <= j0 < |p.files| && p.files[j0] == q.files[j];
    }
  }

  lemma StepCoherent(p: Page, e: Event)
    requires Coherent(p) && FreshEvent(p, e)
    ensures Coherent(Step(p, e))
  {
    match e
    case DropEvent(selected) => DropCoherent(p, Intake(selected).accepted);
    case TickEvent(k, d) => if Live(p, k) { TickCoherent(p, k, d); }
    case RemoveEvent(id) => RemoveCoherent(p, id);
  }

  /** How far a record has got: uploading, then processing, then completed. */
  function Rank(s: Status): nat {
    match s
    case Uploading => 0
    case Processing => 1
    case Completed => 2
    case Failed => 3
  }

  /** With fresh ids, a drop or tick only moves a record forward: its status
      never goes back, and while its status stays, its progress never falls. */
  lemma StepForward(p: Page, e: Event, j: nat)
    requires Coherent(p) && FreshEvent(p, e) && !e.RemoveEvent?
    requires j < |p.files|
    ensures j < |Step(p, e).files|
    ensures var f, g := p.files[j], Step(p, e).files[j];
            && Rank(f.status) <= Rank(g.status)
            && (f.status == g.status ==> f.progress <= g.progress)
  {
    match e
    case DropEvent(selected) =>
    case TickEvent(k, d) =>
      if Live(p, k) && p.files[j].id == p.timers[k].fileId {
        TickForward(p, k, d, j);
      }
  }

  lemma TickForward(p: Page, k: nat, d: Draws, j: nat)
    requires Live(p, k) && j < |p.files| && p.files[j].id == p.timers[k].fileId
    requires Agrees(p.files[j], p.timers[k].phase)
    ensures var f, g := p.files[j], Tick(p, k, d).files[j];
            && Rank(f.status) <= Rank(g.status)
            && (f.status == g.status ==> f.progress <= g.progress)
  {
    match p.timers[k].phase
    case UploadPhase(n) => UploadTickRecord(p, k, n, j);
    case ProcessPhase(n) => ProcessTickRecord(p, k, n, d, j);
  }

  /** With started ids, every record in every reachable page matches its own
      timer, so its status and progress are what its timer says. */
  lemma {:induction false} RunCoherent(p: Page, events: seq<Event>)
    requires Coherent(p) && FreshRun(p, events)
    ensures Coherent(Run(p, events))
    decreases |events|
  {
    if events != [] {
      StepCoherent(p, events[0]);
      RunCoherent(Step(p, events[0]), events[1..]);
    }
  }

  /** `completed` is terminal: on a coherent page no drop or tick changes a
      completed record, whatever ids the event carries, and a removal either
      deletes it or leaves it as it is. */
  lemma CompletedIsTerminal(p: Page, e: Event, j: nat)
    requires Coherent(p)
    requires j < |p.files| && p.files[j].status == Completed
    ensures !e.RemoveEvent? ==> j < |Step(p, e).files| && Step(p, e).files[j] == p.files[j]
    ensures e.RemoveEvent? && e.id != p.files[j].id ==> p.files[j] in Step(p, e).files
  {
    match e
    case DropEvent(selected) =>
    case TickEvent(k, d) =>
    case RemoveEvent(id) =>
  }

  // ---------------------------------------------------------------------
  // One file's timeline

  /** `n` consecutive callbacks of timer `k` with nothing in between. */
  function TickTimes(p: Page, k: nat, d: Draws, n: nat): Page
    decreases n
  {
    if n == 0 then p else Step(TickTimes(p, k, d, n - 1), TickEvent(k, d))
  }

  /** The upload phase: ticks 1 to 9 leave every record with the timer's id
      at 10, 20, ..., 90 with its status unchanged; the 10th switches them
      to `processing` at 0 and starts the processing count. Nothing else
      changes. */
  lemma {:induction false} UploadTimeline(p: Page, k: nat, d: Draws, n: nat)
    requires k < |p.timers| && p.timers[k].phase == UploadPhase(0)
    requires 1 <= n <= 10
    ensures var q := TickTimes(p, k, d, n);
            var id := p.timers[k].fileId;
            && q.credits == p.credits
            && |q.timers| == |p.timers|
            && q.timers[k] == Timer(id, if n < 10 then UploadPhase(10 * n) else ProcessPhase(0))
            && (forall i :: 0 <= i < |p.timers| && i != k ==> q.timers[i] == p.timers[i])
            && |q.files| == |p.files|
            && (forall j :: 0 <= j < |p.files| ==>
                  q.files[j] == if p.files[j].id != id then p.files[j]
                                else if n < 10 then p.files[j].(progress := 10 * n)
                                else p.files[j].(status := Processing, progress := 0))
  {
    if n > 1 {
      UploadTimeline(p, k, d, n - 1);
    }
  }

  /** The processing phase: ticks 1 to 6 set the records to 15, ..., 90;
      the 7th reaches 105, which the same callback overwrites: the records
      end `completed` at 100 with the mock result, the timer is cleared and
      one credit is taken. */
  lemma {:induction false} ProcessTimeline(p: Page, k: nat, d: Draws, n: nat)
    requires k < |p.timers| && p.timers[k].phase == ProcessPhase(0)
    requires 1 <= n <= 7
    ensures var q := TickTimes(p, k, d, n);
            var id := p.timers[k].fileId;
            && q.credits == (if n < 7 then p.credits else Max(0, p.credits - 1))
            && |q.timers| == |p.timers|
            && q.timers[k] == Timer(id, if n < 7 then ProcessPhase(15 * n) else Cleared)
            && (forall i :: 0 <= i < |p.timers| && i != k ==> q.timers[i] == p.timers[i])
            && |q.files| == |p.files|
            && (forall j :: 0 <= j < |p.files| ==>
                  q.files[j] == if p.files[j].id != id then p.files[j]
                                else if n < 7 then p.files[j].(progress := 15 * n)
                                else p.files[j].(status := Completed, progress := 100, result := Some(MockResult(d))))
  {
    if n > 1 {
      ProcessTimeline(p, k, d, n - 1);
    }
  }

  /** Once cleared, a timer never fires again: further ticks change nothing. */
  lemma {:induction false} ClearedTimerIsSilent(p: Page, k: nat, d: Draws, n: nat)
    requires k < |p.timers| && p.timers[k].phase.Cleared?
    ensures TickTimes(p, k, d, n) == p
  {
    if n > 0 {
      ClearedTimerIsSilent(p, k, d, n - 1);
    }
  }

  lemma TickTimesAdd(p: Page, k: nat, d: Draws, m: nat, n: nat)
    ensures TickTimes(TickTimes(p, k, d, m), k, d, n) == TickTimes(p, k, d, m + n)
  {
  }

  /** Dropping one accepted file on the initial page and letting its timer
      run 17 times leaves one completed record at 100 with the mock result
      and 7 credits. */
  lemma SingleFileEndToEnd(a: Arrival, d: Draws)
    requires Acceptable(a.file)
    ensures var q := TickTimes(Step(Init, DropEvent([a])), 0, d, 17);
            && q.files == [UploadedFile(a.file, a.id, Completed, 100, Some(MockResult(d)), None)]
            && q.credits == InitialCredits - 1
            && q.timers == [Timer(a.id, Cleared)]
  {
    var p := Step(Init, DropEvent([a]));
    SingleFileUploaded(a, d);
    SingleFileProcessed(a, d);
    TickTimesAdd(p, 0, d, 10, 7);
  }

  /** After its ten upload ticks the file is `processing` at 0. */
  lemma SingleFileUploaded(a: Arrival, d: Draws)
    requires Acceptable(a.file)
    ensures TickTimes(Step(Init, DropEvent([a])), 0, d, 10)
         == Page([NewRecord(a).(status := Processing)], InitialCredits, [Timer(a.id, ProcessPhase(0))])
  {
    DropOnInit(a);
    var p := Page([NewRecord(a)], InitialCredits, [Timer(a.id, UploadPhase(0))]);
    UploadTimeline(p, 0, d, 10);
    var q := TickTimes(p, 0, d, 10);
    assert q.files[0] == NewRecord(a).(status := Processing);
    assert q.files == [q.files[0]] && q.timers == [q.timers[0]];
  }

  lemma DropOnInit(a: Arrival)
    requires Acceptable(a.file)
    ensures Step(Init, DropEvent([a])) == Page([NewRecord(a)], InitialCredits, [Timer(a.id, UploadPhase(0))])
  {
    assert AcceptedOf([a]) == [a];
    var q := Drop(Init, [a]);
    assert q.files == [NewRecord(a)] && q.timers == [Timer(a.id, UploadPhase(0))];
  }

  /** Seven processing ticks later it is completed and has cost a credit. */
  lemma SingleFileProcessed(a: Arrival, d: Draws)
    ensures TickTimes(Page([NewRecord(a).(status := Processing)], InitialCredits, [Timer(a.id, ProcessPhase(0))]), 0, d, 7)
         == Page([UploadedFile(a.file, a.id, Completed, 100, Some(MockResult(d)), None)], InitialCredits - 1, [Timer(a.id, Cleared)])
  {
    var p := Page([NewRecord(a).(status := Processing)], InitialCredits, [Timer(a.id, ProcessPhase(0))]);
    ProcessTimeline(p, 0, d, 7);
    var q := TickTimes(p, 0, d, 7);
    assert q.files == [q.files[0]] && q.timers == [q.timers[0]];
  }

  // ---------------------------------------------------------------------
  // Runs of events

  /** `n` callbacks of timer `k` as a list of events. */
  function TickEvents(k: nat, d: Draws, n: nat): (es: seq<Event>)
    ensures |es| == n && forall i :: 0 <= i < n ==> es[i] == TickEvent(k, d)
  {
    seq(n, _ => TickEvent(k, d))
  }

  /** Running two lists of events one after the other is running their
      concatenation. */
  lemma {:induction false} RunAppend(p: Page, a: seq<Event>, b: seq<Event>)
    ensures Run(p, a + b) == Run(Run(p, a), b)
    decreases |a|
  {
    if a == [] {
      assert a + b == b;
    } else {
      assert (a + b)[0] == a[0] && (a + b)[1..] == a[1..] + b;
      RunAppend(Step(p, a[0]), a[1..], b);
    }
  }

  /** `TickTimes` is the run of `n` tick events of one timer. */
  lemma {:induction false} RunTicks(p: Page, k: nat, d: Draws, n: nat)
    ensures Run(p, TickEvents(k, d, n)) == TickTimes(p, k, d, n)
  {
    if n > 0 {
      var q := Run(p, TickEvents(k, d, n - 1));
      assert TickEvents(k, d, n) == TickEvents(k, d, n - 1) + [TickEvent(k, d)];
      RunAppend(p, TickEvents(k, d, n - 1), [TickEvent(k, d)]);
      RunTicks(p, k, d, n - 1);
      assert [TickEvent(k, d)][1..] == [];
      assert Run(q, [TickEvent(k, d)]) == Step(q, TickEvent(k, d));
    }
  }

  // ---------------------------------------------------------------------
  // Colliding ids

  /** Drop a file, let its timer run to the end, then drop a second file
      that draws the same id. */
  function CollidingEvents(a: Arrival, d: Draws): seq<Event> {
    [DropEvent([a])] + TickEvents(0, d, 17) + [DropEvent([a])]
  }

  /** The page those events reach: the first record completed and its timer
      cleared, the second record new with its upload timer at 0. */
  lemma ReachCollidingPage(a: Arrival, d: Draws)
    requires Acceptable(a.file)
    ensures Run(Init, CollidingEvents(a, d))
         == Page([UploadedFile(a.file, a.id, Completed, 100, Some(MockResult(d)), None), NewRecord(a)],
                 InitialCredits - 1,
                 [Timer(a.id, Cleared), Timer(a.id, UploadPhase(0))])
  {
    var drop := [DropEvent([a])];
    var ticks := TickEvents(0, d, 17);
    RunAppend(Init, drop + ticks, drop);
    RunAppend(Init, drop, ticks);
    assert drop[1..] == [];
    assert Run(Init, drop) == Step(Init, DropEvent([a]));
    RunTicks(Step(Init, DropEvent([a])), 0, d, 17);
    SingleFileEndToEnd(a, d);
    var q := TickTimes(Step(Init, DropEvent([a])), 0, d, 17);
    assert Run(q, drop) == Step(q, DropEvent([a]));
    assert AcceptedOf([a]) == [a];
  }

  /** Why the fresh-id assumption is needed: on a page reached from the
      initial page, when a second file draws the id of a completed one, the
      first tick of the new upload timer already rewrites the completed
      record's progress, and its tenth tick turns that record back into
      `processing` at 0. */
  lemma CollidingIdsReopenCompleted(a: Arrival, d: Draws, d2: Draws)
    requires Acceptable(a.file)
    ensures var p := Run(Init, CollidingEvents(a, d));
            && Safe(p)
            && |p.files| == 2 && p.files[0].id == a.id && p.files[1].id == a.id
            && p.files[0].status == Completed && p.files[0].progress == 100
            && Step(p, TickEvent(1, d2)).files[0] == p.files[0].(progress := 10)
            && var r := Run(p, TickEvents(1, d2, 10));
               |r.files| == 2 && r.files[0] == p.files[0].(status := Processing, progress := 0)
  {
    InitSafe();
    RunSafe(Init, CollidingEvents(a, d));
    ReachCollidingPage(a, d);
    var p := Run(Init, CollidingEvents(a, d));
    assert Live(p, 1);
    UploadTickRecord(p, 1, 0, 0);
    UploadTimeline(p, 1, d2, 10);
    RunTicks(p, 1, d2, 10);
  }

  // ---------------------------------------------------------------------
  // Removal and the timers that outlive it

  /** After `removeFile(id)` no record with the id remains and the others
      keep their order; the credits and every timer are as before. */
  lemma RemoveFileEffect(p: Page, id: Id)
    ensures var q := RemoveFile(p, id);
            && (forall j :: 0 <= j < |q.files| ==> q.files[j].id != id)
            && q.files == Without(p.files, id)
            && RemoveFile(q, id) == q
  {
    var q := RemoveFile(p, id);
    forall j | 0 <= j < |q.files|
      ensures q.files[j].id != id
    {
      assert q.files[j] in q.files;
    }
    WithoutAbsent(q.files, id);
  }

  /** A removed file's timer keeps firing: its ticks find no record and
      leave the list as it is, and its completion still takes a credit. */
  lemma RemovedFileTimerStillDebits(p: Page, k: nat, d: Draws)
    requires Live(p, k)
    ensures var r := RemoveFile(p, p.timers[k].fileId);
            var q := Tick(r, k, d);
            && q.files == r.files
            && (p.timers[k].phase == ProcessPhase(90) ==> q.credits == Max(0, p.credits - 1))
  {
    RemoveFileEffect(p, p.timers[k].fileId);
  }
}

=== FILE: upload_view.dfy ===
/** What the upload page shows for each record (app/upload/page.tsx): the
    status icon and badge colour, which take the status as a string, the
    badge label, the progress bar, the result panel and the error panel. */
module UploadView {
  import opened Common
  import opened Upload

  /** The string the page stores in a record's `status` field. */
  function StatusName(s: Status): string {
    match s
    case Uploading => "uploading"
    case Processing => "processing"
    case Completed => "completed"
    case Failed => "failed"
  }

  /** The status a string names, if any: the inverse of `StatusName`. */
  function ParseStatus(x: string): (r: Option<Status>)
    ensures r.Some? ==> StatusName(r.value) == x
    ensures r.None? ==> forall s: Status :: StatusName(s) != x
  {
    if x == "uploading" then Some(Uploading)
    else if x == "processing" then Some(Processing)
    else if x == "completed" then Some(Completed)
    else if x == "failed" then Some(Failed)
    else None
  }

  lemma ParseStatusName(s: Status)
    ensures ParseStatus(StatusName(s)) == Some(s)
  {
  }

  const Neutral: Icon := Icon(FileText, Plain)
  const NeutralColor: string := "bg-gray-100 text-gray-800"

  /** `getStatusIcon`: a yellow clock while a file is in flight, a green
      check once completed, a red alert once failed, and a plain file icon
      for any string that names no status. */
  function StatusIcon(x: string): (icon: Icon)
    ensures icon == Neutral <==> ParseStatus(x).None?
    ensures ParseStatus(x) == Some(Uploading) || ParseStatus(x) == Some(Processing) <==> icon == Icon(Clock, Yellow)
    ensures ParseStatus(x) == Some(Completed) <==> icon == Icon(CheckCircle, Green)
    ensures ParseStatus(x) == Some(Failed) <==> icon == Icon(AlertCircle, Red)
  {
    match x
    case "uploading" => Icon(Clock, Yellow)
    case "processing" => Icon(Clock, Yellow)
    case "completed" => Icon(CheckCircle, Green)
    case "failed" => Icon(AlertCircle, Red)
    case _ => Neutral
  }

  /** `getStatusColor`: the badge colour, grouped exactly as the icon. */
  function StatusColor(x: string): (c: string)
    ensures c == NeutralColor <==> ParseStatus(x).None?
  {
    match x
    case "uploading" => "bg-yellow-100 text-yellow-800"
    case "processing" => "bg-yellow-100 text-yellow-800"
    case "completed" => "bg-green-100 text-green-800"
    case "failed" => "bg-red-100 text-red-800"
    case _ => NeutralColor
  }

  /** Icon and colour pick the same group for every string: two strings get
      the same icon exactly when they get the same colour. */
  lemma IconAndColorAgree(x: string, y: string)
    ensures StatusIcon(x) == StatusIcon(y) <==> StatusColor(x) == StatusColor(y)
  {
  }

  /** Every status a record can hold has a status icon of its own: the
      plain fallback icon is only ever drawn for strings naming no status. */
  lemma StatusNeverNeutral(s: Status)
    ensures StatusIcon(StatusName(s)) != Neutral && StatusColor(StatusName(s)) != NeutralColor
  {
    ParseStatusName(s);
  }

  /** The badge text: the status with a capital first letter. */
  function BadgeLabel(s: Status): (caption: string)
    ensures |caption| == |StatusName(s)| && |caption| > 0
    ensures caption[1..] == StatusName(s)[1..]
    ensures caption[0] as int == StatusName(s)[0] as int - 32
  {
    match s
    case Uploading => "Uploading"
    case Processing => "Processing"
    case Completed => "Completed"
    case Failed => "Failed"
  }

  /** The progress bar is shown while a file is uploading or processing. */
  predicate ShowsProgressBar(f: UploadedFile) {
    f.status == Uploading || f.status == Processing
  }

  /** The result panel is shown for a completed record that has a result. */
  predicate ShowsResult(f: UploadedFile) {
    f.status == Completed && f.result.Some?
  }

  const DefaultError: string := "Failed to process file. Please try again."

  /** The error panel's text, shown only for a failed record: its error, or
      the generic message when it has none. */
  function ErrorPanel(f: UploadedFile): (text: Option<string>)
    ensures text.Some? <==> f.status == Failed
    ensures f.status == Failed && f.error.Some? && f.error.value != "" ==> text == f.error
    ensures f.status == Failed && f.error in {None, Some("")} ==> text == Some(DefaultError)
  {
    if f.status != Failed then None
    else if f.error.Some? && f.error.value != "" then f.error
    else Some(DefaultError)
  }

  /** In every reachable page each record shows exactly one of the progress
      bar and the result panel, and never the error panel. */
  lemma {:induction false} ReachablePanels(events: seq<Event>, j: nat)
    requires j < |Run(Init, events).files|
    ensures var f := Run(Init, events).files[j];
            && (ShowsProgressBar(f) != ShowsResult(f))
            && ErrorPanel(f) == None
  {
    InitSafe();
    RunSafe(Init, events);
    assert FileOk(Run(Init, events).files[j]);
  }

  /** With fresh ids, the progress bar is shown exactly while the record's
      timer still runs. */
  lemma ProgressBarWhileTimerRuns(p: Page, j: nat, i: nat)
    requires Coherent(p)
    requires j < |p.files| && i < |p.timers| && p.files[j].id == p.timers[i].fileId
    ensures ShowsProgressBar(p.files[j]) <==> Live(p, i)
  {
    assert Agrees(p.files[j], p.timers[i].phase);
  }
}

=== FILE: user_stats.dfy ===
/** The statistics the dashboard hook derives from three fetched tables
    (hooks/useUserData.ts): the user's quota row, their purchase-order rows
    and their active integration rows. A query that returned no data is
    `None`; the queries themselves are not part of this model. */
module UserStats {
  import opened Common

  /** The quota columns the hook reads; a column may be null. */
  datatype QuotaRow = QuotaRow(monthlyQuota: Option<int>, remainingCredits: Option<int>)

  /** A JSON value as stored in a row's `items` column. */
  datatype Json =
    | JNull
    | JBool(b: bool)
    | JNumber(n: int)
    | JString(s: string)
    | JArray(elems: seq<Json>)
    | JObject(fields: map<string, Json>)

  datatype PurchaseOrder = PurchaseOrder(
    poNumber: string,
    vendorName: Option<string>,
    totalAmount: int,
    items: Option<Json>,
    status: Option<string>,
    createdAt: string)

  /** A row of the active integrations query; only the count is used. */
  datatype IntegrationRow = IntegrationRow(service: string)

  datatype Stats = Stats(
    totalCredits: int,
    usedCredits: int,
    remainingCredits: int,
    totalPOs: nat,
    successRate: int,
    activeIntegrations: nat)

  /** What the hook publishes: the stats and the recent purchase orders. */
  datatype UserData = UserData(stats: Stats, recentPOs: seq<PurchaseOrder>)

  const DefaultCredits: int := 10

  /** `x || fallback` on a nullable number: the fallback replaces a missing
      value and also a 0, the other falsy number. */
  function OrFallback(x: Option<int>, fallback: int): (r: int)
    ensures r == fallback <==> x.None? || x.value == 0 || x.value == fallback
    ensures r != fallback ==> x == Some(r)
  {
    if x.Some? && x.value != 0 then x.value else fallback
  }

  predicate IsCompleted(po: PurchaseOrder) {
    po.status == Some("completed")
  }

  /** The number of rows whose status is exactly "completed". */
  function CountCompleted(pos: seq<PurchaseOrder>): (c: nat)
    ensures c <= |pos|
    ensures c == |pos| <==> forall j :: 0 <= j < |pos| ==> IsCompleted(pos[j])
    ensures c == 0 <==> forall j :: 0 <= j < |pos| ==> !IsCompleted(pos[j])
  {
    if pos == [] then 0
    else (if IsCompleted(pos[0]) then 1 else 0) + CountCompleted(pos[1..])
  }

  /** Counting splits over concatenation: each row counts on its own. */
  lemma {:induction false} CountCompletedAppend(a: seq<PurchaseOrder>, b: seq<PurchaseOrder>)
    ensures CountCompleted(a + b) == CountCompleted(a) + CountCompleted(b)
  {
    if a == [] {
      assert a + b == b;
    } else {
      assert (a + b)[0] == a[0] && (a + b)[1..] == a[1..] + b;
      CountCompletedAppend(a[1..], b);
    }
  }

  /** Rewriting one row's status between two values other than "completed"
      (including a missing status) leaves the count as it is. */
  lemma {:induction false} CountIgnoresOtherStatuses(pos: seq<PurchaseOrder>, j: nat, s: Option<string>)
    requires j < |pos| && !IsCompleted(pos[j]) && s != Some("completed")
    ensures CountCompleted(pos[j := pos[j].(status := s)]) == CountCompleted(pos)
  {
    var q := pos[j := pos[j].(status := s)];
    if j > 0 {
      assert q[1..] == pos[1..][j - 1 := pos[j].(status := s)];
      CountIgnoresOtherStatuses(pos[1..], j - 1, s);
    } else {
      assert q[1..] == pos[1..];
    }
  }

  /** `Math.round(completed / total * 100)` in exact arithmetic: the percent
      nearest to the ratio, halves rounded up. */
  function RoundedPercent(completed: nat, total: nat): (r: int)
    requires total > 0
    ensures 2 * total * r <= 200 * completed + total < 2 * total * (r + 1)
  {
    (200 * completed + total) / (2 * total)
  }

  /** The success rate: 0 with no rows, else the rounded percentage. */
  function SuccessRate(completed: nat, total: nat): (r: int)
    requires completed <= total
    ensures 0 <= r <= 100
    ensures total == 0 ==> r == 0
    ensures total > 0 && completed == total ==> r == 100
    ensures total > 0 && completed == 0 ==> r == 0
    ensures total > 0 ==> 2 * total * r <= 200 * completed + total < 2 * total * (r + 1)
  {
    if total > 0 then
      var r := RoundedPercent(completed, total);
      Bounds(completed, total, r);
      r
    else 0
  }

  lemma MulMonotone(a: int, x: int, y: int)
    requires a >= 0 && x <= y
    ensures a * x <= a * y
  {
    assert a * y - a * x == a * (y - x);
  }

  lemma Bounds(completed: nat, total: nat, r: int)
    requires 0 < total && completed <= total
    requires 2 * total * r <= 200 * completed + total < 2 * total * (r + 1)
    ensures 0 <= r <= 100
    ensures completed == total ==> r == 100
    ensures completed == 0 ==> r == 0
  {
    var t := 2 * total;
    if r < 0 {
      MulMonotone(t, r + 1, 0);
    }
    if r > 100 {
      MulMonotone(t, 101, r);
    }
    if completed == total && r < 100 {
      MulMonotone(t, r + 1, 100);
    }
    if completed == 0 && r > 0 {
      MulMonotone(t, 1, r);
    }
  }

  /** A higher completed count never lowers the rate. */
  lemma SuccessRateMonotone(c1: nat, c2: nat, total: nat)
    requires c1 <= c2 <= total
    ensures SuccessRate(c1, total) <= SuccessRate(c2, total)
  {
    if total > 0 {
      var r1, r2 := SuccessRate(c1, total), SuccessRate(c2, total);
      if r1 > r2 {
        MulMonotone(2 * total, r2 + 1, r1);
      }
    }
  }

  /** `quotaData?.<column> || 10`: the column's value unless the row or
      the value is missing or the value is 0, which all read as 10. */
  function QuotaColumn(quota: Option<QuotaRow>, monthly: bool): (r: int)
    ensures var col := if quota.None? then None
                       else if monthly then quota.value.monthlyQuota
                       else quota.value.remainingCredits;
            && (col in {None, Some(0)} ==> r == DefaultCredits)
            && (col !in {None, Some(0)} ==> col == Some(r))
  {
    if quota.None? then DefaultCredits
    else OrFallback(if monthly then quota.value.monthlyQuota else quota.value.remainingCredits, DefaultCredits)
  }

  /** The stats block of `fetchUserData`, from the three query results. */
  function ComputeUserData(quota: Option<QuotaRow>, pos: Option<seq<PurchaseOrder>>, integrations: Option<seq<IntegrationRow>>): (r: UserData)
    ensures r.stats.usedCredits + r.stats.remainingCredits == r.stats.totalCredits
    ensures r.stats.totalCredits == QuotaColumn(quota, true)
    ensures r.stats.remainingCredits == QuotaColumn(quota, false)
    ensures r.recentPOs == pos.GetOr([])
    ensures r.stats.totalPOs == |r.recentPOs|
    ensures r.stats.successRate == SuccessRate(CountCompleted(r.recentPOs), r.stats.totalPOs)
    ensures r.stats.activeIntegrations == if integrations.Some? then |integrations.value| else 0
  {
    var rows := pos.GetOr([]);
    var total := QuotaColumn(quota, true);
    var left := QuotaColumn(quota, false);
    UserData(
      Stats(total, total - left, left, |rows|, SuccessRate(CountCompleted(rows), |rows|),
            if integrations.Some? then |integrations.value| else 0),
      rows)
  }

  /** What the hook reports, for every combination of query results: used
      plus remaining is the total; a missing quota reads as 10 of 10 with
      none used; the rate is 0 without rows, 100 when every row is
      completed, and always the percentage nearest the completed share. */
  lemma UserDataProperties(quota: Option<QuotaRow>, pos: Option<seq<PurchaseOrder>>, integrations: Option<seq<IntegrationRow>>)
    ensures var r := ComputeUserData(quota, pos, integrations);
            var t := r.stats.totalPOs;
            var rate := r.stats.successRate;
            && 0 <= rate <= 100
            && (t == 0 ==> rate == 0)
            && (t > 0 && (forall j :: 0 <= j < t ==> IsCompleted(r.recentPOs[j])) ==> rate == 100)
            && (t > 0 ==> 2 * t * rate <= 200 * CountCompleted(r.recentPOs) + t < 2 * t * (rate + 1))
            && (quota.None? ==> r.stats.totalCredits == DefaultCredits && r.stats.usedCredits == 0)
            && (pos.None? ==> r.recentPOs == [] && t == 0)
  {
  }

  /** A zero quota or zero balance is reported as 10: a quota of 5 with 0
      credits left reads as 10 remaining and -5 used, and a quota of 0 with
      3 credits left reads as a total of 10 with 7 used. */
  lemma ZeroFallsBackToTen()
    ensures var r := ComputeUserData(Some(QuotaRow(Some(5), Some(0))), None, None);
            r.stats.remainingCredits == 10 && r.stats.usedCredits == -5
    ensures var r := ComputeUserData(Some(QuotaRow(Some(0), Some(3))), None, None);
            r.stats.totalCredits == 10 && r.stats.usedCredits == 7
  {
  }

  /** Only rows with status exactly "completed" move the rate: a row with a
      missing or other status counts toward the total alone. */
  lemma RateCountsOnlyCompleted(quota: Option<QuotaRow>, rows: seq<PurchaseOrder>, integrations: Option<seq<IntegrationRow>>, j: nat, s: Option<string>)
    requires j < |rows| && !IsCompleted(rows[j]) && s != Some("completed")
    ensures ComputeUserData(quota, Some(rows[j := rows[j].(status := s)]), integrations).stats
         == ComputeUserData(quota, Some(rows), integrations).stats
  {
    CountIgnoresOtherStatuses(rows, j, s);
  }
}
